=== FILE: README.md ===
# Login gateway core, modelled in Dafny

This project models the core of a Java login gateway for a game server
cluster. Players connect to the gateway, authenticate, choose a game
server, and are sent on. Game servers connect to the same gateway to
register and to report which accounts are playing on them. The modelled
parts are:

- the handling of one decrypted player packet (`ClientPacketHandler`):
  - the keepalive echo and its watchdog timer;
  - the login decision (`tryCheckinAccount`) and the side effects of each
    result;
  - the session-key gates of the server-list and server-selection
    requests;
- the player connection (`LoginClientThread`): length framing, sending,
  `close`/`disconnect`, `setLastEcho`, and the small setters;
- the game-server connection (`GameServerThread`): framing, the send
  pipeline (checksum, then cipher, then frame), the roster of accounts
  playing on the server, attach, host update, `disconnect` and
  `forceClose`;
- the registry entry of a game server (`GameServerInfo`);
- the status packet parser (`ServerStatusPacket`);
- the packet-type byte codes (`LoginServerPacketType`).

## Module layout

- `Common`:
  - `Option`;
  - Java's signed `byte` (`Int8`), with its narrowing cast `(byte) x`
    (`ToByte`), `& 0xff` (`Unsigned`) and `>> 8` (`ShiftRight8`);
  - the two-byte length header both connection kinds write.
- `PacketTypes`: the seven game-server packet types and `fromByte`.
- `StatusPacket`: the status constants and the attribute parser.
- `ServerThread`: one game-server connection (`Link`).
- `ServerInfo`: one registry entry (`Info`).
- `ClientThread`: one player connection (`Client`).
- `Registry`: the shared state (`World`). It holds:
  - every connection, keyed by object identity;
  - the controller's index of connections by account;
  - the account store;
  - the registry of game servers;
  - the listener's list of live game-server connections;
  - the armed watchdog timers.

  It also holds the operations that span a connection and this state.
- `PacketHandler`: `handle` and its request handlers.

## How the model represents the Java program

- Java objects become immutable datatypes.
- Each mutation becomes a function from the old state to the new one. Its
  contract says what changed and that nothing else did.
- A Java reference that may be `null` is an `Option`.
- A thrown exception that ends a handler becomes either "no change" or an
  explicit fault constructor. `NullInfoFault` is an example.
- Collaborators outside the core become parameters (`Env` in
  `PacketHandler`). These are:
  - the cipher and the checksum;
  - request parsing, including the RSA unwrapping of the credentials;
  - Base64;
  - whether the account store's update succeeds;
  - the session key the controller issues;
  - `isLoginPossible`;
  - DNS resolution;
  - the clock;
  - the iteration order of the registry's hash map.

## Where the code and its documented behaviour differ

The model follows the code in each case below.

- **Password before access level.** The password is checked before the
  access level. An inactive or banned account presented with a wrong
  password is refused as "user or password wrong", and
  `tryCheckinAccount` is never reached. See
  `PacketHandler.WrongPasswordBeatsInactive`.
- **License bypasses the key check.** With `showLicense` on, the
  session-key check of the server-selection request is skipped entirely.
  See `PacketHandler.ShowLicenseBypassesKeyCheck`.
- **Missing guards.**
  - Neither session-key handler checks the connection's state.
  - With no session key stored, the server-list handler fails on the null
    key and does nothing. The server-selection handler does the same only
    while the license is hidden; with the license shown, the `||`
    short-circuits past the key, and the model records `PlayOk(None)` when
    the login is possible.
- **Roster survives disconnect.** A game-server `disconnect` does not
  clear the connection's roster of accounts.
- **Watchdog keeps running.** A player `disconnect` does not stop that
  connection's watchdog timer.
- **The watchdog stops after its first firing.** `setLastEcho` keeps the
  first echo's timer armed and stops every later one. Once that first
  timer has fired, no timer is left to time out the connection; see
  Findings.

## Model

All source paths below are under `loginserver/src/main/java/com/shnok/javaserver/`, written out in full in each row.

| member | source | states |
|---|---|---|
| Common.LengthBytesValue | loginserver/src/main/java/com/shnok/javaserver/thread/LoginClientThread.java:169-171 | reading the two header bytes as hi*256+lo gives back the written length modulo 2^16 |
| Common.JavaBytesOfWireBytes | loginserver/src/main/java/com/shnok/javaserver/thread/LoginClientThread.java:173-175 | writing each body byte with `& 0xFF` and storing it back as a byte loses nothing |
| PacketTypes.Value | loginserver/src/main/java/com/shnok/javaserver/enums/packettypes/internal/LoginServerPacketType.java:7-23 | every type's code is in 0..6 and is its position in declaration order |
| PacketTypes.ByValue | loginserver/src/main/java/com/shnok/javaserver/enums/packettypes/internal/LoginServerPacketType.java:25-31 | the lookup table maps every type's code back to that type |
| PacketTypes.ValueInjective | loginserver/src/main/java/com/shnok/javaserver/enums/packettypes/internal/LoginServerPacketType.java:25-31 | distinct types carry distinct codes, so the table is well defined |
| PacketTypes.FromByteValue | loginserver/src/main/java/com/shnok/javaserver/enums/packettypes/internal/LoginServerPacketType.java:33-39 | decoding the code of any type gives that type |
| PacketTypes.FromByteFailsIff | loginserver/src/main/java/com/shnok/javaserver/enums/packettypes/internal/LoginServerPacketType.java:33-39 | `fromByte` throws exactly for bytes outside 0..6; otherwise the result's code is the byte |
| StatusPacket.StatusCodesContiguous | loginserver/src/main/java/com/shnok/javaserver/dto/internal/gameserverpackets/ServerStatusPacket.java:17-31 | the status codes are 0..5 and the display table has one name per code |
| StatusPacket.ParseServerStatus | loginserver/src/main/java/com/shnok/javaserver/dto/internal/gameserverpackets/ServerStatusPacket.java:33-44 | parsing succeeds iff the stream holds the count and that many pairs; then the i-th attribute is the i-th pair, and a negative count gives no attributes |
| ServerThread.NewLink | loginserver/src/main/java/com/shnok/javaserver/thread/GameServerThread.java:46-59 | a new connection is CONNECTED, has no entry attached, has an empty roster and is open |
| ServerThread.ReadHeader | loginserver/src/main/java/com/shnok/javaserver/thread/GameServerThread.java:89-101 | a negative high byte or a closed socket ends the loop; a body length is the header value minus 2 |
| ServerThread.FrameRoundTrip | loginserver/src/main/java/com/shnok/javaserver/thread/GameServerThread.java:142-144 | with the loop at lines 90-99, bodies up to 65533 bytes are read back with their length; 65534 and 65535 wrap to a negative length |
| ServerThread.FrameForGameServer | loginserver/src/main/java/com/shnok/javaserver/thread/GameServerThread.java:130-149 | the wire holds the header and then the encrypted, checksummed data; a peer reading the header gets the body length |
| ServerThread.SendThenReceive | loginserver/src/main/java/com/shnok/javaserver/thread/GameServerThread.java:130-149 | a peer that deframes, decrypts with the inverse cipher and verifies the checksum accepts every packet sent |
| ServerThread.SendPacket | loginserver/src/main/java/com/shnok/javaserver/thread/GameServerThread.java:123-124 | the packet is recorded as sent, and the `fromByte` lookup of its type never throws |
| ServerThread.GreetLink | loginserver/src/main/java/com/shnok/javaserver/thread/GameServerThread.java:87 | the read loop first sends InitLS (code 0) with the public modulus; nothing else changes |
| ServerThread.KickPlayerOn | loginserver/src/main/java/com/shnok/javaserver/thread/GameServerThread.java:254-256 | a kick for that account is sent, and the roster is unchanged |
| ServerThread.HasAccount | loginserver/src/main/java/com/shnok/javaserver/thread/GameServerThread.java:220-222 | an account is on the server exactly when it is in the roster set |
| ServerThread.PlayerCount | loginserver/src/main/java/com/shnok/javaserver/thread/GameServerThread.java:216-218 | the player count is the size of the roster set |
| ServerThread.PlayerCountZeroIff | loginserver/src/main/java/com/shnok/javaserver/thread/GameServerThread.java:216-222 | the player count is zero exactly when no account is on the server |
| ServerThread.RequestCharactersOn | loginserver/src/main/java/com/shnok/javaserver/thread/GameServerThread.java:250-252 | sends exactly one RequestCharacters (code 6) for the account; nothing else changes |
| ServerThread.AddAccount | loginserver/src/main/java/com/shnok/javaserver/thread/GameServerThread.java:216-226 | the account is present afterwards, other accounts are unchanged, and the count grows by one exactly when it was absent |
| ServerThread.RemoveAccount | loginserver/src/main/java/com/shnok/javaserver/thread/GameServerThread.java:216-230 | the account is absent afterwards, other accounts are unchanged, and the count drops by one exactly when it was present |
| ServerThread.AddTwiceCountsOnce | loginserver/src/main/java/com/shnok/javaserver/thread/GameServerThread.java:216-230 | the roster is a set: a second add does not count, and remove undoes a fresh add |
| ServerThread.SetLoginConnectionState | loginserver/src/main/java/com/shnok/javaserver/thread/GameServerThread.java:237-240 | stores the state and nothing else |
| ServerInfo.NewInfoWithThread | loginserver/src/main/java/com/shnok/javaserver/model/GameServerInfo.java:38-43 | a new entry is down ("Down"), unauthenticated, without port or address, with capacity 0 (the field is never assigned), and with the given identity and connection; every field is stated |
| ServerInfo.NewInfo | loginserver/src/main/java/com/shnok/javaserver/model/GameServerInfo.java:50-52 | the two-argument constructor is the three-argument one with no connection, so the new entry reports 0 players whatever the connections hold |
| ServerInfo.StatusName | loginserver/src/main/java/com/shnok/javaserver/model/GameServerInfo.java:64-74 | the name is "Unknown" exactly for codes outside 0..5; code 4 is "Down" and code 5 is "GM Only" |
| ServerInfo.StatusNameInjective | loginserver/src/main/java/com/shnok/javaserver/model/GameServerInfo.java:64-74 | distinct known codes have distinct names |
| ServerInfo.StatusNamesAgreeExceptGmOnly | loginserver/src/main/java/com/shnok/javaserver/dto/internal/gameserverpackets/ServerStatusPacket.java:24-31 | the packet's display table agrees with `getStatusName` on codes 0..4 and differs on code 5 |
| ServerInfo.SetStatus | loginserver/src/main/java/com/shnok/javaserver/model/GameServerInfo.java:58-62 | any integer is stored unchecked, an out-of-range one displays as "Unknown", and nothing else changes |
| ServerInfo.CurrentPlayerCount | loginserver/src/main/java/com/shnok/javaserver/model/GameServerInfo.java:80-85 | 0 without a connection, and otherwise the size of that connection's roster |
| ServerInfo.SetDown | loginserver/src/main/java/com/shnok/javaserver/model/GameServerInfo.java:90-95 | the entry is down, unauthenticated, without port or connection; identity, address and capacity are kept |
| ServerInfo.SetDownReportsNoPlayers | loginserver/src/main/java/com/shnok/javaserver/model/GameServerInfo.java:90-95 | a downed entry reports 0 players and "Down", and downing it twice is the same as once |
| ClientThread.NewClient | loginserver/src/main/java/com/shnok/javaserver/thread/LoginClientThread.java:61-69 | a new connection keeps the socket's address, session id and timeout; it is open and unauthenticated, not ready, with no user, timer, state, key, server counts or sent packets, and every number Java leaves at its default is 0 |
| ClientThread.CheckLoginPairExact | loginserver/src/main/java/com/shnok/javaserver/thread/ClientPacketHandler.java:249-253 | the login pair check passes exactly for the key's own two parts |
| ClientThread.ReadHeader | loginserver/src/main/java/com/shnok/javaserver/thread/LoginClientThread.java:98-105 | a negative high byte or a closed socket ends the loop; otherwise the body length is hi*256+lo |
| ClientThread.FrameRoundTrip | loginserver/src/main/java/com/shnok/javaserver/thread/LoginClientThread.java:169-171 | a body length is read back modulo 2^16, so exactly below 65536 |
| ClientThread.SendPacket | loginserver/src/main/java/com/shnok/javaserver/thread/LoginClientThread.java:150-179 | the packet is recorded as sent and nothing else changes |
| ClientThread.Greet | loginserver/src/main/java/com/shnok/javaserver/thread/LoginClientThread.java:95 | the read loop first sends the Init packet carrying the connection's session id; nothing else changes |
| ClientThread.SendPacketChecked | loginserver/src/main/java/com/shnok/javaserver/thread/LoginClientThread.java:150-162 | returns false exactly on an encryption I/O error, and then nothing is sent |
| ClientThread.RemoveSelf | loginserver/src/main/java/com/shnok/javaserver/thread/LoginClientThread.java:205-216 | afterwards the connection is unauthenticated; controller removal is skipped exactly for an authenticated connection that is not ready |
| ClientThread.Disconnect | loginserver/src/main/java/com/shnok/javaserver/thread/LoginClientThread.java:141-148 | the socket is closed, removal follows `removeSelf`, and nothing is sent |
| ClientThread.Close | loginserver/src/main/java/com/shnok/javaserver/thread/LoginClientThread.java:126-139 | exactly the given packet is sent last, then the connection is disconnected |
| ClientThread.CloseKicked | loginserver/src/main/java/com/shnok/javaserver/thread/LoginClientThread.java:126-129 | sends AccountKicked with the reason, then disconnects as `removeSelf` does; no other field changes |
| ClientThread.CloseLoginFail | loginserver/src/main/java/com/shnok/javaserver/thread/LoginClientThread.java:131-134 | sends LoginFail with the reason, then disconnects as `removeSelf` does; no other field changes |
| ClientThread.ClosePlayFail | loginserver/src/main/java/com/shnok/javaserver/thread/LoginClientThread.java:136-139 | sends PlayFail with the reason, then disconnects as `removeSelf` does; no other field changes |
| ClientThread.Decrypt | loginserver/src/main/java/com/shnok/javaserver/thread/LoginClientThread.java:222-237 | true exactly for a good checksum; a bad checksum or an I/O error disconnects |
| ClientThread.SetLastEcho | loginserver/src/main/java/com/shnok/javaserver/thread/LoginClientThread.java:191-198 | as written: stores the echo time and timer, and stops the NEW timer whenever an old one exists |
| ClientThread.SetLastEchoIntended | loginserver/src/main/java/com/shnok/javaserver/thread/LoginClientThread.java:191-198 | corrected: stops the previous timer, if any, and stores the new one |
| ClientThread.SetLastEchoStopsWrongTimer | loginserver/src/main/java/com/shnok/javaserver/thread/LoginClientThread.java:191-198 | with a previous timer present, the two versions stop different timers |
| ClientThread.TimedOut | loginserver/src/main/java/com/shnok/javaserver/thread/ClientPacketHandler.java:93 | a connection has timed out when at least the connection timeout has passed since its last echo |
| ClientThread.SetLoginClientState | loginserver/src/main/java/com/shnok/javaserver/thread/LoginClientThread.java:250-256 | the state afterwards is the new one, whether or not it changed, and nothing else changes |
| ClientThread.SetLoginClientStateIdempotent | loginserver/src/main/java/com/shnok/javaserver/thread/LoginClientThread.java:250-256 | setting a state twice is the same as setting it once |
| ClientThread.SetCharsOnServ | loginserver/src/main/java/com/shnok/javaserver/thread/LoginClientThread.java:258-271 | records the count, keeps the other servers' counts and adds exactly this server to the known ones; once enough servers are known, sends LoginOk (license shown) or the server list, and otherwise sends nothing; no other field changes |
| ClientThread.SetCharsOnServCountsServers | loginserver/src/main/java/com/shnok/javaserver/thread/LoginClientThread.java:258-264 | the number of known servers grows by one exactly on a server's first report |
| Registry.DisconnectClient | loginserver/src/main/java/com/shnok/javaserver/thread/LoginClientThread.java:141-148 | the connection is closed and unauthenticated and no other field of it changes; when `removeSelf` deregisters, exactly the index entries pointing at it are dropped, and otherwise the index is unchanged; other connections and all shared state are unchanged |
| Registry.CloseClient | loginserver/src/main/java/com/shnok/javaserver/thread/LoginClientThread.java:126-139 | the packet is the connection's last, it is closed and unauthenticated, and no other field of it changes; the index loses its entries for it exactly when `removeSelf` deregisters, keeps every entry of other connections, and never gains or changes one; other connections, the store, the registry and the timers are unchanged |
| Registry.SendToClient | loginserver/src/main/java/com/shnok/javaserver/thread/LoginClientThread.java:150-179 | only that connection changes, and only by the packet appended to what it has sent |
| Registry.SetGameHosts | loginserver/src/main/java/com/shnok/javaserver/thread/GameServerThread.java:185-204 | the hostname becomes the connection's address for "*" or an unresolvable name, and the resolved address otherwise; nothing else changes, so the world stays well formed |
| Registry.AttachGameServerInfo | loginserver/src/main/java/com/shnok/javaserver/thread/GameServerThread.java:174-183 | entry and connection point at each other; port, capacity and authed are set; the hostname is the connection's address for "*" or an unresolvable name and the resolved address otherwise; the entry reports the connection's roster size; nothing else changes, and the world stays well formed |
| Registry.DisconnectServer | loginserver/src/main/java/com/shnok/javaserver/thread/GameServerThread.java:157-172 | as written: fails with the world unchanged exactly when no entry was attached; otherwise an authed entry is set down, the link is unlisted and closed with its roster kept, nothing else changes, and the world stays well formed |
| Registry.DisconnectServerIntended | loginserver/src/main/java/com/shnok/javaserver/thread/GameServerThread.java:157-172 | corrected: every connection is unlisted and closed, an authed entry is set down, nothing else changes, and the world stays well formed |
| Registry.DisconnectServerFailsUnregistered | loginserver/src/main/java/com/shnok/javaserver/thread/GameServerThread.java:157-172 | the two versions agree wherever the one as written succeeds; it fails on every unregistered connection |
| Registry.UnregisteredLinkStaysListed | loginserver/src/main/java/com/shnok/javaserver/thread/GameServerThread.java:157-172 | a concrete unregistered connection stays listed and open after the disconnect as written, and is unlisted by the corrected one |
| Registry.DisconnectReportsNoPlayers | loginserver/src/main/java/com/shnok/javaserver/thread/GameServerThread.java:157-172 | after an authed server drops, its entry reports 0 players although the connection keeps its roster |
| Registry.ForceClose | loginserver/src/main/java/com/shnok/javaserver/thread/GameServerThread.java:206-210 | the failure notice is always appended; then, as written, the disconnect fails for a connection with no entry (leaving it listed and open), and otherwise sets an authed entry down, unlists and closes the connection and changes nothing else; the world stays well formed |
| PacketHandler.Handle | loginserver/src/main/java/com/shnok/javaserver/thread/ClientPacketHandler.java:44-85 | a cipher failure or a bad checksum changes nothing; each request type goes to its handler, a ping to `OnReceiveEcho` as written; an unknown type changes nothing |
| PacketHandler.HandleKeepsValid | loginserver/src/main/java/com/shnok/javaserver/thread/ClientPacketHandler.java:44-85 | handling any packet keeps the world well formed, so packets can be handled one after another |
| PacketHandler.OnReceiveEcho | loginserver/src/main/java/com/shnok/javaserver/thread/ClientPacketHandler.java:87-103 | as written: the connection changes only by the ping reply, the echo time and the new timer; the new timer stays armed only on a first echo, and no older timer is stopped; nothing else changes |
| PacketHandler.OnReceiveEchoIntended | loginserver/src/main/java/com/shnok/javaserver/thread/ClientPacketHandler.java:87-103 | corrected: the connection changes only by the ping reply, the echo time and the new timer; the timer set loses exactly the previous timer of this connection and gains the new one; nothing else changes |
| PacketHandler.EchoTimer | loginserver/src/main/java/com/shnok/javaserver/thread/ClientPacketHandler.java:90-93 | the echo's timer belongs to the connection; with no later echo, the connection has timed out when it fires and had not 101 ms earlier |
| PacketHandler.FireWatchdog | loginserver/src/main/java/com/shnok/javaserver/thread/ClientPacketHandler.java:90-99 | the one-shot timer is removed, and it disconnects its connection exactly when the silence reached the timeout |
| PacketHandler.EchoRun | loginserver/src/main/java/com/shnok/javaserver/thread/ClientPacketHandler.java:87-103 | after a run of echoes the connection records the last echo's time and timer |
| PacketHandler.EchoRunKeepsFirstTimer | loginserver/src/main/java/com/shnok/javaserver/thread/ClientPacketHandler.java:87-103 | as written, after any number of echoes the connection's only armed timer is the first echo's |
| PacketHandler.EchoRunIntendedKeepsLatestTimer | loginserver/src/main/java/com/shnok/javaserver/thread/ClientPacketHandler.java:87-103 | corrected, the connection's only armed timer is the latest echo's |
| PacketHandler.WatchdogLostAfterLaterEcho | loginserver/src/main/java/com/shnok/javaserver/thread/ClientPacketHandler.java:87-103 | as written, when all echoes arrive before the first timer is due and a later one comes more than 100 ms after the first, no armed timer can ever time the connection out |
| PacketHandler.WatchdogIntendedCatchesSilence | loginserver/src/main/java/com/shnok/javaserver/thread/ClientPacketHandler.java:87-103 | corrected, an armed timer exists and it times out a connection that stays silent |
| PacketHandler.WatchdogLostExample | loginserver/src/main/java/com/shnok/javaserver/thread/ClientPacketHandler.java:87-103 | a 1000 ms timeout with echoes at 0 and 500 ms leaves one timer at 1100 ms; it does not disconnect, and no timer remains |
| PacketHandler.FirstHolder | loginserver/src/main/java/com/shnok/javaserver/thread/ClientPacketHandler.java:216-225 | the search returns a listed server whose connection holds the account, and none exactly when no listed server does |
| PacketHandler.IsAccountInAnyGameServer | loginserver/src/main/java/com/shnok/javaserver/thread/ClientPacketHandler.java:216-225 | returns a registered server whose connection holds the account, and null exactly when there is none |
| PacketHandler.FirstHolderFindsAny | loginserver/src/main/java/com/shnok/javaserver/thread/ClientPacketHandler.java:216-225 | iterating over every registered server finds a holder whenever one exists |
| PacketHandler.FirstHolderReadsRegistry | loginserver/src/main/java/com/shnok/javaserver/thread/ClientPacketHandler.java:216-225 | the search depends only on the registry and the game-server connections |
| PacketHandler.CanCheckIn | loginserver/src/main/java/com/shnok/javaserver/thread/ClientPacketHandler.java:227-244 | the connection always gets the account's access level and last server and no other field changes; the store is refreshed and the result is true exactly when the update succeeds; nothing else changes |
| PacketHandler.CanCheckInKeepsValid | loginserver/src/main/java/com/shnok/javaserver/thread/ClientPacketHandler.java:227-244 | the check-in keeps the world well formed: the refreshed record stays under its own login |
| PacketHandler.TryCheckinAccount | loginserver/src/main/java/com/shnok/javaserver/thread/ClientPacketHandler.java:190-214 | gives INACTIVE/BANNED for negative levels with no effect; otherwise INVALID_PASSWORD on a failed check-in; otherwise ALREADY_ON_GS iff some game server holds the account, ALREADY_ON_LS iff not but a connection holds it, AUTH_SUCCESS iff neither |
| PacketHandler.ApplyAuthResult | loginserver/src/main/java/com/shnok/javaserver/thread/ClientPacketHandler.java:141-187 | the effects of each result: on success, the connection changes only in username, state, key and the reply; on each failure, the close packet; ALREADY_ON_LS is exactly `RejectAlreadyOnLs`; on ALREADY_ON_GS the player is closed and the holder is kicked if authed; everything else is unchanged |
| PacketHandler.RejectAlreadyOnLs | loginserver/src/main/java/com/shnok/javaserver/thread/ClientPacketHandler.java:167-175 | the connection already holding the login, if any, and the current one each get ACCOUNT_IN_USE and are closed, with no other field of either changed (twice on the same connection when they coincide); other connections, game servers and timers are unchanged, and the index keeps every entry of other connections and gains none |
| PacketHandler.CloseHolderAndPlayer | loginserver/src/main/java/com/shnok/javaserver/thread/ClientPacketHandler.java:168-174 | the holder and then the player are closed with ACCOUNT_IN_USE, each changed only in what a close changes; the index keeps every entry of other connections |
| PacketHandler.RejectAlreadyOnGs | loginserver/src/main/java/com/shnok/javaserver/thread/ClientPacketHandler.java:176-186 | with no holder nothing changes; otherwise the player gets ACCOUNT_IN_USE and is closed, and only the first holder's connection, if authed, is sent one KickPlayer |
| PacketHandler.AccountFor | loginserver/src/main/java/com/shnok/javaserver/thread/ClientPacketHandler.java:114-136 | an existing account gives back its stored record; an auto-created one is keyed by the name and holds the encoded hash, the blank access level and last server, the connection's address and the current time |
| PacketHandler.CredentialsRejected | loginserver/src/main/java/com/shnok/javaserver/thread/ClientPacketHandler.java:119-136 | credentials are refused exactly for a known account whose stored hash differs from the Base64 of the received one, or an unknown account without auto-creation |
| PacketHandler.OnReceiveAuth | loginserver/src/main/java/com/shnok/javaserver/thread/ClientPacketHandler.java:105-188 | no result exactly when the hash mismatches or the account is unknown without auto-create, and then the player gets USER_OR_PASS_WRONG; otherwise the check-in result and its effects; the world stays well formed |
| PacketHandler.WrongPasswordBeatsInactive | loginserver/src/main/java/com/shnok/javaserver/thread/ClientPacketHandler.java:119-123 | an inactive account with a wrong password gets USER_OR_PASS_WRONG, not INACTIVE, and the store is untouched |
| PacketHandler.AlreadyOnGsKicksHolder | loginserver/src/main/java/com/shnok/javaserver/thread/ClientPacketHandler.java:176-186 | a valid login for an account a game server holds gives ALREADY_ON_GS and closes the player; when the server found is authed it is sent a kick for that account |
| PacketHandler.OnRequestServerList | loginserver/src/main/java/com/shnok/javaserver/thread/ClientPacketHandler.java:246-255 | the server list is sent exactly on a matching pair, with no other change to the connection or the world; otherwise the connection is closed with ACCESS_FAILED; without a key nothing happens |
| PacketHandler.ServerLoginGate | loginserver/src/main/java/com/shnok/javaserver/thread/ClientPacketHandler.java:262 | the gate always passes when the license is shown; otherwise it passes exactly when the stored key equals the received pair |
| PacketHandler.AdmitToServer | loginserver/src/main/java/com/shnok/javaserver/thread/ClientPacketHandler.java:263-269 | a possible login marks the connection joined and sends PlayOk with its key; otherwise PlayFail(SERVER_OVERLOADED); in both cases nothing else changes |
| PacketHandler.OnRequestServerLogin | loginserver/src/main/java/com/shnok/javaserver/thread/ClientPacketHandler.java:257-272 | past the gate: PlayOk and joined if login is possible, else PlayFail(SERVER_OVERLOADED) and still open, with no other change to the connection or the world; a failed gate closes with ACCESS_FAILED |
| PacketHandler.ShowLicenseBypassesKeyCheck | loginserver/src/main/java/com/shnok/javaserver/thread/ClientPacketHandler.java:260-262 | with the license shown any pair passes the gate; without it a wrong pair fails |

## Left out

- Configuration loading (`ServerConfig`). The handler receives the values it reads as a `Config` record.
- Socket I/O and the partial-read loop that fills a body. A packet is modelled as already received. Delivery failures on a closed socket are not modelled, and nor is the Java `int` overflow of `len + 2` for bodies beyond 2^31 bytes.
- Threads, the thread pool, and `synchronized`. Every operation is one atomic step on the world.
- Swing timer scheduling. A timer is a record with its due time, and `FireWatchdog` is one firing of it.
- The Blowfish, RSA and checksum algorithms, and the packet byte layouts (`AuthRequestPacket`, `ServerListPacket` contents and the like). They are parameters.
- The account store, DNS, the clock, and the login-server controller's internals. The answers of `getNewSessionKey` and `isLoginPossible` are parameters. `getClient` is a lookup in the `byAccount` index, and `removeClient` drops every index entry that points at the connection.
- Failures of the account store's `getAccountInfo` and `createAccount`. `OnReceiveAuth` and `AccountFor` assume both succeed. In the source a throw there ends the handler without any close packet.
- Whether `new PlayOkPacket(null)` can be built when the license is shown and no key is stored. The packet classes are not part of this model, and `OnRequestServerLogin` records `PlayOk(None)`.
- Logging, and the server name lookup `ServerNameDAO`.
- The constants of `LoginClientState`, `GameServerState` and the reason enums that the modelled code does not use.
- The constant `isPvp` field.
- `serCharsWaitingDelOnServ`, `setBlowfish`, `isBannedGameServerIP` (always false), `getServerId` and `getServerName`. They are plain accessors or forwarders with no decision in them.
- Exceptions that escape a handler thread, where the model treats the handler as ending with no effect:
  - a null session key;
  - an unknown client packet type in the `switch`.
- Registry.CloseClient: a close always appends its packet. The encryption I/O error that would keep it from being sent is modelled only in `ClientThread.SendPacketChecked`.

## Findings

| source | as written | input that shows it | evidently intended | confidence | as-written member | corrected member |
|---|---|---|---|---|---|---|
| loginserver/src/main/java/com/shnok/javaserver/thread/LoginClientThread.java:191-198 | the parameter `watchDog` shadows the field, so `watchDog.stop()` stops the timer just created, and the previous one keeps running | timeout 1000 ms, echoes at 0 ms and 500 ms: the only armed timer fires at 1100 ms, sees 600 ms of silence, and no timer is left to time out a client that then goes silent | stop the previous timer (`this.watchDog.stop()`), so the latest echo's timer is the one armed | not executed | PacketHandler.WatchdogLostExample | PacketHandler.WatchdogIntendedCatchesSilence |
| loginserver/src/main/java/com/shnok/javaserver/thread/GameServerThread.java:157-172 | `disconnect` calls `gameServerInfo.isAuthed()` without a null check | a game server connects and drops before registering: the `NullPointerException` skips `removeGameServer` and `connection.close()`, so the connection stays listed and open | skip the entry update when no entry is attached, but always unlist and close | not executed | Registry.UnregisteredLinkStaysListed | Registry.DisconnectServerIntended |

`PacketHandler.Handle` and `Registry.ForceClose` follow the code as written: they use `OnReceiveEcho` and `DisconnectServer`. The corrected halves are:
- `ClientThread.SetLastEchoIntended` and `PacketHandler.OnReceiveEchoIntended`, used by the intended echo runs (`EchoRun` with `intended`);
- `Registry.DisconnectServerIntended`, which `Registry.DisconnectServerFailsUnregistered` compares with the version as written.

=== FILE: ClientThread.dfy ===
/** One player connection (`LoginClientThread`): its client-side length
    framing, the packets sent to the player, the close and disconnect paths,
    the keepalive fields, and the small setters the handler uses. The
    account index of the login-server controller is in `Registry`; here a
    disconnect only reports whether the controller removal runs. */
module ClientThread {
  import opened Common

  /** The connection's progress (`LoginClientState`). Only `AUTHED_LOGIN`
      is used by the modelled code; the other constants of that enum are not
      part of this model and are carried by name. */
  datatype LoginClientState = AuthedLogin | OtherLoginState(name: string)

  /** The reason constants the modelled code uses (the enums themselves are
      not part of this model). */
  datatype LoginFailReason =
    | ReasonUserOrPassWrong
    | ReasonInactive
    | ReasonAccountInUse
    | ReasonAccessFailed
  datatype AccountKickedReason = ReasonPermanentlyBanned
  datatype PlayFailReason = ReasonServerOverloaded

  /** The login pair of a session key; the other parts of `SessionKey` are
      not part of this model. */
  datatype SessionKey = SessionKey(loginOkId1: int, loginOkId2: int)

  /** `checkLoginPair`: both parts must match exactly. */
  predicate CheckLoginPair(k: SessionKey, skey1: int, skey2: int)
  {
    k.loginOkId1 == skey1 && k.loginOkId2 == skey2
  }

  /** A key validates against its own parts and against no other pair. */
  lemma CheckLoginPairExact(k: SessionKey, skey1: int, skey2: int)
    ensures CheckLoginPair(k, k.loginOkId1, k.loginOkId2)
    ensures CheckLoginPair(k, skey1, skey2) <==> k == SessionKey(skey1, skey2)
  {
  }

  /** Packets the gateway sends to a player. */
  datatype ServerPacket =
    | InitPacket(sessionId: int)
    | PingReply
    | LoginOk(key: Option<SessionKey>)
    | ServerList
    | LoginFail(failReason: LoginFailReason)
    | AccountKicked(kickedReason: AccountKickedReason)
    | PlayFail(playReason: PlayFailReason)
    | PlayOk(playKey: Option<SessionKey>)

  /** A one-shot watchdog timer owned by a connection, due at `fireAt`. */
  datatype Timer = Timer(id: nat, owner: ClientId, fireAt: int)

  /** A player connection. Fields that Java leaves `null` are `Option`s.
      `sent` lists the packets handed to `sendPacket`, oldest first; `open`
      is false once the socket is closed. */
  datatype Client = Client(
    connectionIp: string,
    authenticated: bool,
    username: Option<string>,
    clientReady: bool,
    lastEcho: int,
    watchDog: Option<Timer>,
    state: Option<LoginClientState>,
    accessLevel: int,
    lastGameserver: int,
    joinedGS: bool,
    sessionId: int,
    sessionKey: Option<SessionKey>,
    charsOnServers: Option<map<int, int>>,
    connectionTimeoutMs: int,
    expectedCharacterCount: int,
    sent: seq<ServerPacket>,
    open: bool)

  /** The constructor: `sessionId` is the random id drawn for the
      connection and `timeoutMs` the configured connection timeout. */
  function NewClient(connectionIp: string, sessionId: int, timeoutMs: int): (c: Client)
    ensures c.open && !c.authenticated && c.watchDog.None? && c.state.None?
    ensures c.sessionKey.None? && c.charsOnServers.None? && c.sent == []
    ensures c.connectionTimeoutMs == timeoutMs && c.sessionId == sessionId
    ensures c.connectionIp == connectionIp && c.username.None? && !c.clientReady && c.lastEcho == 0
    ensures c.accessLevel == 0 && c.lastGameserver == 0 && !c.joinedGS && c.expectedCharacterCount == 0
  {
    Client(connectionIp, false, None, false, 0, None, None, 0, 0, false,
           sessionId, None, None, timeoutMs, 0, [], true)
  }

  // ---------------------------------------------------------------------
  // Framing: on this connection kind the length counts the body only.
  // ---------------------------------------------------------------------

  /** The header written before a body of `bodyLen` bytes. */
  function WriteHeader(bodyLen: nat): seq<UInt8>
  {
    LengthBytes(bodyLen)
  }

  /** The read loop's interpretation of the two header bytes: a negative
      high byte or a closed socket ends the loop before a body is allocated. */
  function ReadHeader(lo: ReadResult, hi: ReadResult, closed: bool): (h: HeaderRead)
    ensures hi < 0 || closed ==> h == EndOfStream
    ensures h.Body? ==> h.length == hi * 256 + lo
  {
    if hi < 0 || closed then EndOfStream
    else
      var length := hi * 256 + lo;
      if length < 0 then NegativeLength(length) else Body(length)
  }

  /** A body length is read back modulo 2^16, so exactly for lengths below
      65536. */
  lemma {:induction false} FrameRoundTrip(n: nat)
    ensures ReadHeader(WriteHeader(n)[0], WriteHeader(n)[1], false) == Body(n % 65536)
    ensures n < 65536 ==> ReadHeader(WriteHeader(n)[0], WriteHeader(n)[1], false) == Body(n)
  {
    LengthBytesValue(n);
  }

  // ---------------------------------------------------------------------
  // Sending, encryption and decryption results.
  // ---------------------------------------------------------------------

  /** `sendPacket` when encryption succeeds: the packet is recorded. Failures
      to deliver on the socket are not modelled (see `SendPacketChecked`). */
  function SendPacket(c: Client, p: ServerPacket): (r: Client)
    ensures r.sent == c.sent + [p]
    ensures r.(sent := c.sent) == c
  {
    c.(sent := c.sent + [p])
  }

  /** The first thing the read loop does: greet the player with the
      connection's session id (the key material the greeting also carries is
      not part of this model). */
  function Greet(c: Client): (r: Client)
    ensures r.sent == c.sent + [InitPacket(c.sessionId)]
    ensures r.sent[|c.sent|].sessionId == r.sessionId
    ensures r.(sent := c.sent) == c
  {
    SendPacket(c, InitPacket(c.sessionId))
  }

  datatype SendResult = SendResult(client: Client, ok: bool)

  /** `sendPacket` with the outcome of `encrypt`: an I/O error while
      encrypting is the only way `encrypt` returns false, and then nothing
      is sent and `sendPacket` returns false. */
  function SendPacketChecked(c: Client, p: ServerPacket, encryptIoError: bool): (r: SendResult)
    ensures r.ok <==> !encryptIoError
    ensures r.ok ==> r.client == SendPacket(c, p)
    ensures !r.ok ==> r.client == c
  {
    if encryptIoError then SendResult(c, false) else SendResult(SendPacket(c, p), true)
  }

  /** The result of a disconnect: the updated connection and whether the
      login-server controller is asked to drop it (`removeClient`). */
  datatype Disconnected = Disconnected(client: Client, deregistered: bool)

  /** `removeSelf`: afterwards the connection is not authenticated. The
      controller removal is skipped only for an authenticated connection
      that is not `clientReady`. */
  function RemoveSelf(c: Client): (r: Disconnected)
    ensures !r.client.authenticated
    ensures r.deregistered <==> !c.authenticated || c.clientReady
    ensures r.client.(authenticated := c.authenticated) == c
  {
    if c.authenticated then
      var c1 := c.(authenticated := false);
      if !c1.clientReady then Disconnected(c1, false) else Disconnected(c1, true)
    else Disconnected(c, true)
  }

  /** `disconnect`: `removeSelf` and then the socket is closed. */
  function Disconnect(c: Client): (r: Disconnected)
    ensures !r.client.open && !r.client.authenticated
    ensures r.deregistered <==> !c.authenticated || c.clientReady
    ensures r.client.sent == c.sent
    ensures r.client.(authenticated := c.authenticated, open := c.open) == c
  {
    var d := RemoveSelf(c);
    Disconnected(d.client.(open := false), d.deregistered)
  }

  /** The three `close` overloads: send one packet of the overload's kind,
      then disconnect. */
  function Close(c: Client, p: ServerPacket): (r: Disconnected)
    requires p.LoginFail? || p.AccountKicked? || p.PlayFail?
    ensures r.client.sent == c.sent + [p]
    ensures !r.client.open && !r.client.authenticated
    ensures r.deregistered <==> !c.authenticated || c.clientReady
    ensures r.client.(sent := c.sent, authenticated := c.authenticated, open := c.open) == c
  {
    Disconnect(SendPacket(c, p))
  }

  function CloseKicked(c: Client, reason: AccountKickedReason): (r: Disconnected)
    ensures r.client.sent == c.sent + [AccountKicked(reason)] && !r.client.open
    ensures !r.client.authenticated && (r.deregistered <==> !c.authenticated || c.clientReady)
    ensures r.client.(sent := c.sent, authenticated := c.authenticated, open := c.open) == c
  {
    Close(c, AccountKicked(reason))
  }

  function CloseLoginFail(c: Client, reason: LoginFailReason): (r: Disconnected)
    ensures r.client.sent == c.sent + [LoginFail(reason)] && !r.client.open
    ensures !r.client.authenticated && (r.deregistered <==> !c.authenticated || c.clientReady)
    ensures r.client.(sent := c.sent, authenticated := c.authenticated, open := c.open) == c
  {
    Close(c, LoginFail(reason))
  }

  function ClosePlayFail(c: Client, reason: PlayFailReason): (r: Disconnected)
    ensures r.client.sent == c.sent + [PlayFail(reason)] && !r.client.open
    ensures !r.client.authenticated && (r.deregistered <==> !c.authenticated || c.clientReady)
    ensures r.client.(sent := c.sent, authenticated := c.authenticated, open := c.open) == c
  {
    Close(c, PlayFail(reason))
  }

  /** What `loginCrypt.decrypt` does to a packet. */
  datatype DecryptOutcome = ChecksumOk | ChecksumWrong | DecryptIoError

  datatype DecryptResult = DecryptResult(ok: bool, client: Client, deregistered: bool)

  /** `decrypt`: true only for a decrypted packet with a good checksum; a
      bad checksum or an I/O error disconnects the connection. */
  function Decrypt(c: Client, outcome: DecryptOutcome): (r: DecryptResult)
    ensures r.ok <==> outcome == ChecksumOk
    ensures r.ok ==> r.client == c && !r.deregistered
    ensures !r.ok ==> Disconnected(r.client, r.deregistered) == Disconnect(c)
  {
    match outcome
    case ChecksumOk => DecryptResult(true, c, false)
    case _ =>
      var d := Disconnect(c);
      DecryptResult(false, d.client, d.deregistered)
  }

  // ---------------------------------------------------------------------
  // Keepalive.
  // ---------------------------------------------------------------------

  /** The result of `setLastEcho`: the updated connection and the timer on
      which `stop()` was called, if any. */
  datatype EchoUpdate = EchoUpdate(client: Client, stopped: Option<Timer>)

  /** `setLastEcho(lastEcho, watchDog)` as written: the parameter named
      `watchDog` shadows the field, so when a previous timer exists it is
      the newly supplied timer that is stopped, and the previous one keeps
      running. */
  function SetLastEcho(c: Client, lastEcho: int, watchDog: Timer): (r: EchoUpdate)
    ensures r.client.lastEcho == lastEcho && r.client.watchDog == Some(watchDog)
    ensures r.stopped == (if c.watchDog.Some? then Some(watchDog) else None)
    ensures r.client.(lastEcho := c.lastEcho, watchDog := c.watchDog) == c
  {
    var stopped := if c.watchDog.Some? then Some(watchDog) else None;
    EchoUpdate(c.(lastEcho := lastEcho, watchDog := Some(watchDog)), stopped)
  }

  /** `setLastEcho` as evidently intended: the previous timer is stopped and
      replaced, so at most one timer stays armed. */
  function SetLastEchoIntended(c: Client, lastEcho: int, watchDog: Timer): (r: EchoUpdate)
    ensures r.client.lastEcho == lastEcho && r.client.watchDog == Some(watchDog)
    ensures r.stopped == c.watchDog
    ensures r.client.(lastEcho := c.lastEcho, watchDog := c.watchDog) == c
  {
    EchoUpdate(c.(lastEcho := lastEcho, watchDog := Some(watchDog)), c.watchDog)
  }

  /** The two versions differ whenever a previous timer exists: the one as
      written stops the new timer and leaves the old one running. */
  lemma SetLastEchoStopsWrongTimer(c: Client, lastEcho: int, watchDog: Timer)
    requires c.watchDog.Some? && c.watchDog.value != watchDog
    ensures SetLastEcho(c, lastEcho, watchDog).stopped == Some(watchDog)
    ensures SetLastEchoIntended(c, lastEcho, watchDog).stopped == c.watchDog
    ensures SetLastEcho(c, lastEcho, watchDog).stopped != SetLastEchoIntended(c, lastEcho, watchDog).stopped
  {
  }

  /** The watchdog's test when its timer fires at time `now`. */
  predicate TimedOut(c: Client, now: int)
  {
    now - c.lastEcho >= c.connectionTimeoutMs
  }

  // ---------------------------------------------------------------------
  // Setters.
  // ---------------------------------------------------------------------

  /** `setLoginClientState`: the state afterwards is always the new state,
      whether or not it changed, and nothing else changes. */
  function SetLoginClientState(c: Client, newState: LoginClientState): (r: Client)
    ensures r.state == Some(newState)
    ensures r.(state := c.state) == c
  {
    if c.state != Some(newState) then c.(state := Some(newState)) else c
  }

  /** Setting the same state twice is the same as setting it once. */
  lemma SetLoginClientStateIdempotent(c: Client, s: LoginClientState)
    ensures SetLoginClientState(SetLoginClientState(c, s), s) == SetLoginClientState(c, s)
  {
  }

  /** `setCharsOnServ`: records the character count for the server (creating
      the map on first use) and, once counts for at least
      `expectedCharacterCount` servers are known, sends `LoginOk` when the
      license is shown and the server list otherwise. */
  function SetCharsOnServ(c: Client, servId: int, chars: int, showLicense: bool): (r: Client)
    ensures r.charsOnServers.Some? && servId in r.charsOnServers.value
    ensures r.charsOnServers.value[servId] == chars
    ensures c.charsOnServers.Some? ==>
              forall s :: s in c.charsOnServers.value && s != servId ==>
                s in r.charsOnServers.value && r.charsOnServers.value[s] == c.charsOnServers.value[s]
    ensures c.charsOnServers.None? ==> r.charsOnServers.value.Keys == {servId}
    ensures c.charsOnServers.Some? ==> r.charsOnServers.value.Keys == c.charsOnServers.value.Keys + {servId}
    ensures r.(charsOnServers := c.charsOnServers, sent := c.sent) == c
    ensures |r.charsOnServers.value| >= c.expectedCharacterCount ==>
              r.sent == c.sent + [if showLicense then LoginOk(c.sessionKey) else ServerList]
    ensures |r.charsOnServers.value| < c.expectedCharacterCount ==> r.sent == c.sent
  {
    var m := if c.charsOnServers.None? then map[] else c.charsOnServers.value;
    var c1 := c.(charsOnServers := Some(m[servId := chars]));
    if |m[servId := chars]| >= c1.expectedCharacterCount then
      if showLicense then SendPacket(c1, LoginOk(c1.sessionKey)) else SendPacket(c1, ServerList)
    else c1
  }

  /** The number of servers with a known count grows by one exactly when a
      server reports for the first time, so repeating a report never changes
      whether the reply threshold is reached. */
  lemma {:induction false} SetCharsOnServCountsServers(c: Client, servId: int, chars: int, showLicense: bool)
    ensures var r := SetCharsOnServ(c, servId, chars, showLicense);
            var before := if c.charsOnServers.None? then map[] else c.charsOnServers.value;
            |r.charsOnServers.value| == |before| + (if servId in before then 0 else 1)
  {
    var r := SetCharsOnServ(c, servId, chars, showLicense);
    var before := if c.charsOnServers.None? then map[] else c.charsOnServers.value;
    if servId in before {
      assert r.charsOnServers.value.Keys == before.Keys;
    } else {
      assert r.charsOnServers.value.Keys == before.Keys + {servId};
      assert |before.Keys + {servId}| == |before.Keys| + 1;
    }
  }
}

=== FILE: Common.dfy ===
/** Types shared by every part of the login gateway model: optional values,
    Java's signed byte, the values a stream read returns, and object identities. */
module Common {

  /** A value that may be absent; stands for a Java reference that may be null. */
  datatype Option<+T> = None | Some(value: T)

  /** A Java `byte`: a signed 8-bit value. */
  newtype Int8 = x: int | -128 <= x < 128

  /** An unsigned byte, as written by `OutputStream.write(int)` after `& 0xff`. */
  type UInt8 = x: int | 0 <= x < 256

  /** What `InputStream.read()` returns: an unsigned byte, or -1 at end of stream. */
  type ReadResult = x: int | -1 <= x < 256

  /** Identity of a player connection object (a `LoginClientThread`). */
  type ClientId = nat

  /** Identity of a game-server connection object (a `GameServerThread`). */
  type LinkId = nat

  /** Java's narrowing cast `(byte) x`: keeps the low 8 bits, read as two's complement. */
  function ToByte(x: int): (b: Int8)
    ensures (b as int - x) % 256 == 0
  {
    var low := x % 256;
    if low < 128 then low as Int8 else (low - 256) as Int8
  }

  /** Java's `b & 0xff` on a byte promoted to int. */
  function Unsigned(b: Int8): (u: UInt8)
    ensures (u - b as int) % 256 == 0
  {
    if b < 0 then b as int + 256 else b as int
  }

  /** Reading an unsigned byte back as a Java `byte`. */
  function Signed(u: UInt8): (b: Int8)
    ensures Unsigned(b) == u
  {
    if u < 128 then u as Int8 else (u - 256) as Int8
  }

  /** `(byte) x & 0xff` is the low byte of `x`. */
  lemma LowByte(x: int)
    ensures Unsigned(ToByte(x)) == x % 256
  {
  }

  /** Java's arithmetic shift `x >> 8`; Dafny's division by a positive
      divisor rounds toward negative infinity, exactly as the shift does. */
  function ShiftRight8(x: int): int
  {
    x / 256
  }

  /** The two header bytes both connection kinds write for a length value:
      `(byte)(len) & 0xff` then `(byte)(len >> 8) & 0xff`, low byte first. */
  function LengthBytes(len: int): (h: seq<UInt8>)
    ensures |h| == 2
  {
    [Unsigned(ToByte(len)), Unsigned(ToByte(ShiftRight8(len)))]
  }

  /** Reading the two header bytes back as `hi * 256 + lo` recovers the
      written length modulo 2^16: the header silently keeps only 16 bits. */
  lemma LengthBytesValue(len: int)
    ensures LengthBytes(len)[1] as int * 256 + LengthBytes(len)[0] as int == len % 65536
  {
    LowByte(len);
    LowByte(len / 256);
    var q := len / 256;
    var r := len % 256;
    var q2 := q / 256;
    var r2 := q % 256;
    assert len == 256 * q + r;
    assert q == 256 * q2 + r2;
    assert len == 65536 * q2 + (256 * r2 + r);
    assert 0 <= 256 * r2 + r < 65536;
    ModOfDecomposition(len, q2, 256 * r2 + r);
  }

  /** `x % 65536` of a value split as `65536 * k + s` with `s` in range is `s`. */
  lemma ModOfDecomposition(x: int, k: int, s: int)
    requires x == 65536 * k + s && 0 <= s < 65536
    ensures x % 65536 == s
  {
  }

  /** Outcome of reading a two-byte length header in a read loop: the loop
      ends (`EndOfStream`), the computed body length is negative (allocating
      the body array throws, which also ends the loop), or a body follows. */
  datatype HeaderRead = EndOfStream | NegativeLength(computed: int) | Body(length: nat)

  /** The bytes of a body as written one by one with `b & 0xFF`. */
  function WireBytes(body: seq<Int8>): (u: seq<UInt8>)
    ensures |u| == |body|
    ensures forall i :: 0 <= i < |body| ==> u[i] == Unsigned(body[i])
  {
    seq(|body|, i requires 0 <= i < |body| => Unsigned(body[i]))
  }

  /** The bytes of a body as a receiver stores them into a `byte[]`. */
  function JavaBytes(u: seq<UInt8>): (b: seq<Int8>)
    ensures |b| == |u|
    ensures forall i :: 0 <= i < |u| ==> b[i] == Signed(u[i])
  {
    seq(|u|, i requires 0 <= i < |u| => Signed(u[i]))
  }

  /** Writing a body byte by byte and storing the bytes back loses nothing. */
  lemma JavaBytesOfWireBytes(body: seq<Int8>)
    ensures JavaBytes(WireBytes(body)) == body
  {
    var back := JavaBytes(WireBytes(body));
    forall i | 0 <= i < |body|
      ensures back[i] == body[i]
    {
      assert Unsigned(Signed(Unsigned(body[i]))) == Unsigned(body[i]);
    }
  }
}

=== FILE: PacketHandler.dfy ===
/** The handling of one packet received from a player
    (`ClientPacketHandler`): decryption and checksum gate, dispatch by
    request type, the keepalive echo and its watchdog, the login decision
    and its side effects, and the session-key gates of the server-list and
    server-selection requests. */
module PacketHandler {
  import opened Common
  import opened ClientThread
  import opened ServerThread
  import opened ServerInfo
  import opened Registry

  /** The configuration values the handler reads. */
  datatype Config = Config(showLicense: bool, autoCreateAccount: bool, accountInactiveLevel: int)

  /** A decrypted player request as the packet classes read it. The
      credential payload of `AuthRequest` is already unwrapped with the
      connection's private key. */
  datatype ClientRequest =
    | PingRequest
    | AuthRequest(account: string, passHash: seq<Int8>)
    | RequestServerList(skey1: int, skey2: int)
    | RequestServerLogin(serverId: int, skey1: int, skey2: int)
    | OtherRequest

  datatype AuthLoginResult =
    | AuthSuccess
    | InvalidPassword
    | AccountInactive
    | AccountBanned
    | AlreadyOnLs
    | AlreadyOnGs

  /** The collaborators of one handled packet and what they answer:
      `decrypt` is `None` when the cipher throws; `parse` reads the request
      (including the RSA unwrapping); `base64` encodes the password hash;
      `blankAccessLevel` and `blankLastServer` are the fields of a freshly
      created account record; `updateSucceeds` says whether the account
      store accepts the update; `newSessionKey` is the key the controller
      issues; `isLoginPossible` is the controller's capacity check;
      `timerId` identifies the watchdog timer created for this packet;
      `order` is the iteration order of the registered servers. */
  datatype Env = Env(
    config: Config,
    now: int,
    decrypt: seq<Int8> -> Option<seq<Int8>>,
    verifyChecksum: seq<Int8> -> bool,
    parse: seq<Int8> -> ClientRequest,
    base64: seq<Int8> -> string,
    blankAccessLevel: int,
    blankLastServer: int,
    updateSucceeds: bool,
    newSessionKey: SessionKey,
    isLoginPossible: (Client, int) -> bool,
    timerId: nat,
    order: seq<int>)

  /** Iterating in `order` visits every registered server. */
  predicate OrderCovers(w: World, order: seq<int>)
  {
    forall id :: id in w.infos ==> id in order
  }

  /** The world and connection a packet of `cid` is handled against. */
  predicate Ready(w: World, cid: ClientId, env: Env)
  {
    cid in w.clients && Valid(w) && OrderCovers(w, env.order)
  }

  // ---------------------------------------------------------------------
  // Dispatch.
  // ---------------------------------------------------------------------

  /** `handle`: a packet the cipher rejects or whose checksum is wrong is
      dropped with no reply and no change; an unrecognised request is
      ignored; the four known requests go to their handlers. */
  function Handle(w: World, cid: ClientId, raw: seq<Int8>, env: Env): (r: World)
    requires Ready(w, cid, env)
    ensures env.decrypt(raw).None? ==> r == w
    ensures env.decrypt(raw).Some? && !env.verifyChecksum(env.decrypt(raw).value) ==> r == w
    ensures env.decrypt(raw).Some? && env.verifyChecksum(env.decrypt(raw).value) ==>
              match env.parse(env.decrypt(raw).value)
              case PingRequest => r == OnReceiveEcho(w, cid, env.now, env.timerId)
              case AuthRequest(a, h) => r == OnReceiveAuth(w, cid, a, h, env).world
              case RequestServerList(k1, k2) => r == OnRequestServerList(w, cid, k1, k2)
              case RequestServerLogin(s, k1, k2) => r == OnRequestServerLogin(w, cid, s, k1, k2, env)
              case OtherRequest => r == w
    ensures r.clients.Keys == w.clients.Keys
  {
    match env.decrypt(raw)
    case None => w
    case Some(data) =>
      if !env.verifyChecksum(data) then w
      else
        match env.parse(data)
        case PingRequest => OnReceiveEcho(w, cid, env.now, env.timerId)
        case AuthRequest(account, passHash) => OnReceiveAuth(w, cid, account, passHash, env).world
        case RequestServerList(k1, k2) => OnRequestServerList(w, cid, k1, k2)
        case RequestServerLogin(serverId, k1, k2) => OnRequestServerLogin(w, cid, serverId, k1, k2, env)
        case OtherRequest => w
  }

  /** Handling a packet keeps the world well formed, so packets can be
      handled one after another. */
  lemma {:induction false} HandleKeepsValid(w: World, cid: ClientId, raw: seq<Int8>, env: Env)
    requires Ready(w, cid, env)
    ensures Valid(Handle(w, cid, raw, env))
  {
    var r := Handle(w, cid, raw, env);
    if env.decrypt(raw).Some? && env.verifyChecksum(env.decrypt(raw).value) &&
       env.parse(env.decrypt(raw).value).PingRequest? {
      OnlyClientChangedKeepsValid(w.(timers := r.timers), r, cid);
    }
  }

  // ---------------------------------------------------------------------
  // Keepalive.
  // ---------------------------------------------------------------------

  /** The timer `onReceiveEcho` creates at time `now`: due after the
      connection timeout plus 100 ms. */
  function EchoTimer(c: Client, cid: ClientId, now: int, timerId: nat): (t: Timer)
    ensures t.owner == cid && t.id == timerId
    // With no later echo, the connection counts as timed out when the
    // timer fires, and had not yet timed out 101 ms earlier.
    ensures TimedOut(c.(lastEcho := now), t.fireAt)
    ensures !TimedOut(c.(lastEcho := now), t.fireAt - 101)
  {
    Timer(timerId, cid, now + c.connectionTimeoutMs + 100)
  }

  /** `onReceiveEcho` as written: replies with a ping, starts a new timer
      and records it with `setLastEcho`. Because `setLastEcho` stops the
      timer it was given whenever an older one exists, the new timer stays
      armed only on the first echo; older timers are never stopped. */
  function OnReceiveEcho(w: World, cid: ClientId, now: int, timerId: nat): (r: World)
    requires cid in w.clients
    ensures var t := EchoTimer(w.clients[cid], cid, now, timerId);
            && cid in r.clients
            && r.clients[cid].sent == w.clients[cid].sent + [PingReply]
            && r.clients[cid].lastEcho == now && r.clients[cid].watchDog == Some(t)
            && (w.clients[cid].watchDog.None? ==> r.timers == w.timers + {t})
            && (w.clients[cid].watchDog.Some? ==> r.timers == w.timers - {t})
    ensures r.clients[cid].connectionTimeoutMs == w.clients[cid].connectionTimeoutMs
    ensures r.clients[cid].open == w.clients[cid].open
    ensures r.clients[cid] == w.clients[cid].(sent := w.clients[cid].sent + [PingReply], lastEcho := now,
                                              watchDog := Some(EchoTimer(w.clients[cid], cid, now, timerId)))
    ensures OnlyClientChanged(w.(timers := r.timers), r, cid)
  {
    var t := EchoTimer(w.clients[cid], cid, now, timerId);
    var c := ClientThread.SendPacket(w.clients[cid], PingReply);
    var started := w.timers + {t};
    var u := SetLastEcho(c, now, t);
    var timers := if u.stopped.Some? then started - {u.stopped.value} else started;
    w.(clients := w.clients[cid := u.client], timers := timers)
  }

  /** `onReceiveEcho` with `setLastEcho` as evidently intended: the previous
      timer is stopped and the new one stays armed. */
  function OnReceiveEchoIntended(w: World, cid: ClientId, now: int, timerId: nat): (r: World)
    requires cid in w.clients
    ensures var t := EchoTimer(w.clients[cid], cid, now, timerId);
            && cid in r.clients
            && r.clients[cid].sent == w.clients[cid].sent + [PingReply]
            && r.clients[cid].lastEcho == now && r.clients[cid].watchDog == Some(t)
            && t in r.timers
            && (w.clients[cid].watchDog.Some? && w.clients[cid].watchDog.value != t ==>
                  w.clients[cid].watchDog.value !in r.timers)
            && r.timers == (if w.clients[cid].watchDog.Some? then w.timers - {w.clients[cid].watchDog.value}
                            else w.timers) + {t}
    ensures r.clients[cid].connectionTimeoutMs == w.clients[cid].connectionTimeoutMs
    ensures r.clients[cid] == w.clients[cid].(sent := w.clients[cid].sent + [PingReply], lastEcho := now,
                                              watchDog := Some(EchoTimer(w.clients[cid], cid, now, timerId)))
    ensures OnlyClientChanged(w.(timers := r.timers), r, cid)
  {
    var t := EchoTimer(w.clients[cid], cid, now, timerId);
    var c := ClientThread.SendPacket(w.clients[cid], PingReply);
    var started := w.timers + {t};
    var u := SetLastEchoIntended(c, now, t);
    var timers := if u.stopped.Some? then started - {u.stopped.value} + {t} else started;
    w.(clients := w.clients[cid := u.client], timers := timers)
  }

  /** A timer firing at time `now`: it is a one-shot timer, and it
      disconnects its connection exactly when no echo arrived within the
      connection timeout. */
  function FireWatchdog(w: World, t: Timer, now: int): (r: World)
    requires t in w.timers && t.owner in w.clients
    ensures r.timers == w.timers - {t}
    ensures TimedOut(w.clients[t.owner], now) ==> r == DisconnectClient(w.(timers := w.timers - {t}), t.owner)
    ensures TimedOut(w.clients[t.owner], now) ==> !r.clients[t.owner].open
    ensures !TimedOut(w.clients[t.owner], now) ==> r == w.(timers := w.timers - {t})
  {
    var w1 := w.(timers := w.timers - {t});
    if TimedOut(w.clients[t.owner], now) then DisconnectClient(w1, t.owner) else w1
  }

  /** One keepalive echo: its arrival time and the id of the timer created for it. */
  datatype Echo = Echo(now: int, timerId: nat)

  /** The echoes of `es`, in order, handled as written (or as intended). */
  function EchoRun(w: World, cid: ClientId, es: seq<Echo>, intended: bool): (r: World)
    requires cid in w.clients
    ensures cid in r.clients
    ensures r.clients[cid].connectionTimeoutMs == w.clients[cid].connectionTimeoutMs
    ensures |es| == 0 ==> r == w
    ensures |es| > 0 ==> r.clients[cid].lastEcho == es[|es| - 1].now
    ensures |es| > 0 ==> r.clients[cid].watchDog == Some(EchoTimer(w.clients[cid], cid, es[|es| - 1].now, es[|es| - 1].timerId))
    decreases |es|
  {
    if |es| == 0 then w
    else
      var prev := EchoRun(w, cid, es[..|es| - 1], intended);
      var e := es[|es| - 1];
      if intended then OnReceiveEchoIntended(prev, cid, e.now, e.timerId)
      else OnReceiveEcho(prev, cid, e.now, e.timerId)
  }

  /** The armed timers that belong to connection `cid`. */
  function OwnTimers(w: World, cid: ClientId): set<Timer>
  {
    set t | t in w.timers && t.owner == cid
  }

  /** The echo timer ids are pairwise distinct (each `new Timer` is a new object). */
  predicate DistinctTimers(es: seq<Echo>)
  {
    forall i, j :: 0 <= i < j < |es| ==> es[i].timerId != es[j].timerId
  }

  /** As written: however many echoes arrive, the only armed timer of the
      connection is the one created for the first echo. */
  lemma {:induction false} EchoRunKeepsFirstTimer(w: World, cid: ClientId, es: seq<Echo>)
    requires cid in w.clients && w.clients[cid].watchDog.None? && OwnTimers(w, cid) == {}
    requires |es| > 0 && DistinctTimers(es)
    ensures OwnTimers(EchoRun(w, cid, es, false), cid) == {EchoTimer(w.clients[cid], cid, es[0].now, es[0].timerId)}
    decreases |es|
  {
    var c := w.clients[cid];
    var t0 := EchoTimer(c, cid, es[0].now, es[0].timerId);
    var e := es[|es| - 1];
    var prev := EchoRun(w, cid, es[..|es| - 1], false);
    var t := EchoTimer(prev.clients[cid], cid, e.now, e.timerId);
    var r := EchoRun(w, cid, es, false);
    assert r == OnReceiveEcho(prev, cid, e.now, e.timerId);
    if |es| == 1 {
      assert prev == w;
      assert r.timers == w.timers + {t};
      assert t == t0;
      assert OwnTimers(r, cid) == OwnTimers(w, cid) + {t0};
    } else {
      EchoRunKeepsFirstTimer(w, cid, es[..|es| - 1]);
      assert es[..|es| - 1][0] == es[0];
      assert OwnTimers(prev, cid) == {t0};
      assert r.timers == prev.timers - {t};
      assert t.id != t0.id by {
        assert es[0].timerId != es[|es| - 1].timerId;
      }
      assert OwnTimers(r, cid) == OwnTimers(prev, cid) - {t};
    }
  }

  /** As intended: after any echoes the only armed timer of the connection
      is the one created for the latest echo. */
  lemma {:induction false} EchoRunIntendedKeepsLatestTimer(w: World, cid: ClientId, es: seq<Echo>)
    requires cid in w.clients && w.clients[cid].watchDog.None? && OwnTimers(w, cid) == {}
    requires |es| > 0
    ensures var e := es[|es| - 1];
            OwnTimers(EchoRun(w, cid, es, true), cid) == {EchoTimer(w.clients[cid], cid, e.now, e.timerId)}
    decreases |es|
  {
    var c := w.clients[cid];
    var e := es[|es| - 1];
    var prev := EchoRun(w, cid, es[..|es| - 1], true);
    var t := EchoTimer(prev.clients[cid], cid, e.now, e.timerId);
    var r := EchoRun(w, cid, es, true);
    assert r == OnReceiveEchoIntended(prev, cid, e.now, e.timerId);
    if |es| == 1 {
      assert prev == w;
      assert r.timers == w.timers + {t};
      assert OwnTimers(r, cid) == OwnTimers(w, cid) + {t};
    } else {
      EchoRunIntendedKeepsLatestTimer(w, cid, es[..|es| - 1]);
      var p := es[..|es| - 1][|es| - 2];
      var tp := EchoTimer(c, cid, p.now, p.timerId);
      assert OwnTimers(prev, cid) == {tp};
      assert prev.clients[cid].watchDog == Some(tp);
      assert r.timers == prev.timers - {tp} + {t};
      assert OwnTimers(r, cid) == OwnTimers(prev, cid) - {tp} + {t};
    }
  }

  /** The liveness loss as written: when every echo arrives before the first
      echo's timer is due (so no timer fires during the run), and a later
      echo arrives more than 100 ms after the first, the connection's only
      armed timer fires too early to see a timeout, and no other timer is
      left to catch a client that falls silent. */
  lemma {:induction false} WatchdogLostAfterLaterEcho(w: World, cid: ClientId, es: seq<Echo>)
    requires cid in w.clients && w.clients[cid].watchDog.None? && OwnTimers(w, cid) == {}
    requires |es| > 1 && DistinctTimers(es) && es[|es| - 1].now > es[0].now + 100
    requires forall k :: 0 <= k < |es| ==> es[k].now < EchoTimer(w.clients[cid], cid, es[0].now, es[0].timerId).fireAt
    ensures var r := EchoRun(w, cid, es, false);
            forall t :: t in OwnTimers(r, cid) ==> !TimedOut(r.clients[cid], t.fireAt)
  {
    EchoRunKeepsFirstTimer(w, cid, es);
  }

  /** As intended, the armed timer of a connection that falls silent after
      its last echo always disconnects it when it fires. */
  lemma {:induction false} WatchdogIntendedCatchesSilence(w: World, cid: ClientId, es: seq<Echo>)
    requires cid in w.clients && w.clients[cid].watchDog.None? && OwnTimers(w, cid) == {}
    requires |es| > 0
    ensures var r := EchoRun(w, cid, es, true);
            && OwnTimers(r, cid) != {}
            && forall t :: t in OwnTimers(r, cid) ==> TimedOut(r.clients[cid], t.fireAt)
  {
    EchoRunIntendedKeepsLatestTimer(w, cid, es);
  }

  /** A concrete instance: with a 1000 ms timeout and echoes at 0 ms and
      500 ms, the one armed timer fires at 1100 ms, finds only 600 ms of
      silence, and the connection is never timed out afterwards. */
  lemma WatchdogLostExample()
    ensures var w := World(map[0 := NewClient("10.0.0.2", 1, 1000)], map[], map[], map[], map[], {}, {});
            var r := EchoRun(w, 0, [Echo(0, 1), Echo(500, 2)], false);
            && OwnTimers(r, 0) == {Timer(1, 0, 1100)}
            && !TimedOut(r.clients[0], 1100)
            && FireWatchdog(r, Timer(1, 0, 1100), 1100).clients[0].open
            && OwnTimers(FireWatchdog(r, Timer(1, 0, 1100), 1100), 0) == {}
  {
    var w := World(map[0 := NewClient("10.0.0.2", 1, 1000)], map[], map[], map[], map[], {}, {});
    var es := [Echo(0, 1), Echo(500, 2)];
    EchoRunKeepsFirstTimer(w, 0, es);
    var r := EchoRun(w, 0, es, false);
    var f := FireWatchdog(r, Timer(1, 0, 1100), 1100);
    assert OwnTimers(f, 0) == OwnTimers(r, 0) - {Timer(1, 0, 1100)};
  }

  // ---------------------------------------------------------------------
  // Login decision.
  // ---------------------------------------------------------------------

  /** Registered server `id` has a connection whose roster holds the account. */
  predicate Holds(w: World, id: int, account: string)
  {
    && id in w.infos && w.infos[id].thread.Some?
    && w.infos[id].thread.value in w.links
    && HasAccount(w.links[w.infos[id].thread.value], account)
  }

  /** Some registered server holds the account. */
  predicate InAnyGameServer(w: World, account: string)
  {
    exists id | id in w.infos :: Holds(w, id, account)
  }

  /** The first server in `order` that holds the account. */
  function FirstHolder(w: World, account: string, order: seq<int>): (r: Option<int>)
    ensures r.Some? ==> r.value in order && Holds(w, r.value, account)
    ensures r.None? <==> forall i :: 0 <= i < |order| ==> !Holds(w, order[i], account)
    decreases |order|
  {
    if |order| == 0 then None
    else if Holds(w, order[0], account) then Some(order[0])
    else FirstHolder(w, account, order[1..])
  }

  /** `isAccountInAnyGameServer`: some registered server whose connection
      holds the account, or `None` exactly when there is none. */
  function IsAccountInAnyGameServer(w: World, account: string, order: seq<int>): (r: Option<int>)
    requires OrderCovers(w, order)
    ensures r.Some? ==> Holds(w, r.value, account)
    ensures r.None? <==> !InAnyGameServer(w, account)
  {
    FirstHolderFindsAny(w, account, order);
    FirstHolder(w, account, order)
  }

  /** When the order visits every registered server, a holder, if any,
      is found. */
  lemma FirstHolderFindsAny(w: World, account: string, order: seq<int>)
    requires OrderCovers(w, order)
    ensures InAnyGameServer(w, account) ==> FirstHolder(w, account, order).Some?
  {
    if InAnyGameServer(w, account) {
      var id :| id in w.infos && Holds(w, id, account);
      assert id in order;
      var i :| 0 <= i < |order| && order[i] == id;
      assert Holds(w, order[i], account);
    }
  }

  datatype CheckInAttempt = CheckInAttempt(ok: bool, world: World)

  /** `canCheckIn`: records the account's access level and last server on
      the connection, then refreshes the account's address and activity
      time in the store. A store failure makes it false; the connection
      fields are set either way. */
  function CanCheckIn(w: World, cid: ClientId, info: Account, env: Env): (r: CheckInAttempt)
    requires cid in w.clients
    ensures r.ok <==> env.updateSucceeds
    ensures cid in r.world.clients
    ensures r.world.clients[cid].accessLevel == info.accessLevel
    ensures r.world.clients[cid].lastGameserver == info.lastServer
    ensures r.ok ==> r.world.accounts == w.accounts[info.login :=
              info.(lastIp := Some(w.clients[cid].connectionIp), lastActive := env.now)]
    ensures !r.ok ==> r.world.accounts == w.accounts
    ensures r.world.clients[cid].sent == w.clients[cid].sent && r.world.clients[cid].open == w.clients[cid].open
    ensures r.world.clients[cid].(accessLevel := w.clients[cid].accessLevel,
                                  lastGameserver := w.clients[cid].lastGameserver) == w.clients[cid]
    ensures OnlyClientChanged(w.(accounts := r.world.accounts), r.world, cid)
  {
    var c := w.clients[cid].(accessLevel := info.accessLevel, lastGameserver := info.lastServer);
    var w1 := w.(clients := w.clients[cid := c]);
    if env.updateSucceeds then
      var refreshed := info.(lastIp := Some(c.connectionIp), lastActive := env.now);
      CheckInAttempt(true, w1.(accounts := w1.accounts[info.login := refreshed]))
    else CheckInAttempt(false, w1)
  }

  /** The check-in keeps the world well formed: the refreshed record stays
      under its own login. */
  lemma {:induction false} CanCheckInKeepsValid(w: World, cid: ClientId, info: Account, env: Env)
    requires cid in w.clients && Valid(w)
    requires info.login in w.accounts ==> w.accounts[info.login] == info
    ensures Valid(CanCheckIn(w, cid, info, env).world)
  {
    var r := CanCheckIn(w, cid, info, env).world;
    OnlyClientChangedKeepsValid(w.(accounts := r.accounts), r, cid);
  }

  datatype CheckinDecision = CheckinDecision(result: AuthLoginResult, world: World)

  /** `tryCheckinAccount`. A negative access level decides INACTIVE (the
      configured sentinel) or BANNED without touching the connection or the
      store. Otherwise a failed check-in is INVALID_PASSWORD, and after a
      successful one the account on a game server wins over the account on
      this login server, and success means it is on neither. */
  function TryCheckinAccount(w: World, cid: ClientId, info: Account, env: Env): (r: CheckinDecision)
    requires Ready(w, cid, env) && (info.login in w.accounts ==> w.accounts[info.login] == info)
    ensures info.accessLevel < 0 ==> r.world == w
    ensures info.accessLevel < 0 && info.accessLevel == env.config.accountInactiveLevel ==> r.result == AccountInactive
    ensures info.accessLevel < 0 && info.accessLevel != env.config.accountInactiveLevel ==> r.result == AccountBanned
    ensures info.accessLevel >= 0 && !env.updateSucceeds ==> r.result == InvalidPassword
    ensures info.accessLevel >= 0 && env.updateSucceeds ==>
              && (r.result == AlreadyOnGs <==> InAnyGameServer(w, info.login))
              && (r.result == AlreadyOnLs <==> !InAnyGameServer(w, info.login) && info.login in w.byAccount)
              && (r.result == AuthSuccess <==> !InAnyGameServer(w, info.login) && info.login !in w.byAccount)
    ensures info.accessLevel >= 0 ==> r.world == CanCheckIn(w, cid, info, env).world
    ensures Ready(r.world, cid, env)
    ensures r.world.byAccount == w.byAccount && r.world.infos == w.infos && r.world.links == w.links
  {
    if info.accessLevel < 0 then
      if info.accessLevel == env.config.accountInactiveLevel then CheckinDecision(AccountInactive, w)
      else CheckinDecision(AccountBanned, w)
    else
      var ck := CanCheckIn(w, cid, info, env);
      var w1 := ck.world;
      CanCheckInKeepsValid(w, cid, info, env);
      FirstHolderReadsRegistry(w1, w, info.login, env.order);
      if !ck.ok then CheckinDecision(InvalidPassword, w1)
      else if IsAccountInAnyGameServer(w1, info.login, env.order).Some? then CheckinDecision(AlreadyOnGs, w1)
      else if info.login in w1.byAccount then CheckinDecision(AlreadyOnLs, w1)
      else CheckinDecision(AuthSuccess, w1)
  }

  /** Closes the connection `prior` holding a login and then the current
      connection `cid`, each with ACCOUNT_IN_USE; when they coincide, that
      connection is sent the packet twice. */
  function CloseHolderAndPlayer(w: World, prior: ClientId, cid: ClientId): (r: World)
    requires cid in w.clients && prior in w.clients && Valid(w)
    ensures r.clients.Keys == w.clients.Keys
    ensures !r.clients[cid].open && !r.clients[cid].authenticated
    ensures r.accounts == w.accounts && r.infos == w.infos && r.links == w.links
    ensures r.listening == w.listening && r.timers == w.timers
    ensures forall a :: a in r.byAccount ==> a in w.byAccount && r.byAccount[a] == w.byAccount[a]
    ensures forall a :: a in w.byAccount && w.byAccount[a] != cid && w.byAccount[a] != prior ==>
              a in r.byAccount && r.byAccount[a] == w.byAccount[a]
    ensures prior != cid ==>
              && r.clients[prior].sent == w.clients[prior].sent + [LoginFail(ReasonAccountInUse)]
              && !r.clients[prior].open && !r.clients[prior].authenticated
              && r.clients[prior].(sent := w.clients[prior].sent, authenticated := w.clients[prior].authenticated,
                                   open := w.clients[prior].open) == w.clients[prior]
              && r.clients[cid].sent == w.clients[cid].sent + [LoginFail(ReasonAccountInUse)]
              && r.clients[cid].(sent := w.clients[cid].sent, authenticated := w.clients[cid].authenticated,
                                 open := w.clients[cid].open) == w.clients[cid]
              && forall o :: o in w.clients && o != cid && o != prior ==> r.clients[o] == w.clients[o]
    ensures prior == cid ==>
              && r.clients[cid].sent == w.clients[cid].sent + [LoginFail(ReasonAccountInUse), LoginFail(ReasonAccountInUse)]
              && r.clients[cid].(sent := w.clients[cid].sent, authenticated := w.clients[cid].authenticated,
                                 open := w.clients[cid].open) == w.clients[cid]
              && forall o :: o in w.clients && o != cid ==> r.clients[o] == w.clients[o]
    ensures Valid(r)
  {
    var w1 := CloseClient(w, prior, LoginFail(ReasonAccountInUse));
    CloseClient(w1, cid, LoginFail(ReasonAccountInUse))
  }

  /** ALREADY_ON_LS: the connection already holding the login, if any, is
      sent ACCOUNT_IN_USE and closed, and so is the current one. */
  function RejectAlreadyOnLs(w: World, cid: ClientId, login: string): (r: World)
    requires cid in w.clients && Valid(w)
    ensures r.clients.Keys == w.clients.Keys
    ensures !r.clients[cid].open && |r.clients[cid].sent| > 0
    ensures r.clients[cid].sent[|r.clients[cid].sent| - 1] == LoginFail(ReasonAccountInUse)
    ensures r.accounts == w.accounts && r.infos == w.infos && r.links == w.links
    ensures r.listening == w.listening && r.timers == w.timers
    ensures forall a :: a in r.byAccount ==> a in w.byAccount && r.byAccount[a] == w.byAccount[a]
    ensures login !in w.byAccount ==> r == CloseClient(w, cid, LoginFail(ReasonAccountInUse))
    ensures login in w.byAccount ==>
              forall a :: a in w.byAccount && w.byAccount[a] != cid && w.byAccount[a] != w.byAccount[login] ==>
                a in r.byAccount && r.byAccount[a] == w.byAccount[a]
    ensures login in w.byAccount && w.byAccount[login] != cid ==>
              var prior := w.byAccount[login];
              && r.clients[prior].sent == w.clients[prior].sent + [LoginFail(ReasonAccountInUse)]
              && !r.clients[prior].open && !r.clients[prior].authenticated
              && r.clients[prior].(sent := w.clients[prior].sent, authenticated := w.clients[prior].authenticated,
                                   open := w.clients[prior].open) == w.clients[prior]
              && r.clients[cid].sent == w.clients[cid].sent + [LoginFail(ReasonAccountInUse)]
              && !r.clients[cid].authenticated
              && r.clients[cid].(sent := w.clients[cid].sent, authenticated := w.clients[cid].authenticated,
                                 open := w.clients[cid].open) == w.clients[cid]
              && forall o :: o in w.clients && o != cid && o != prior ==> r.clients[o] == w.clients[o]
    ensures login in w.byAccount && w.byAccount[login] == cid ==>
              && r.clients[cid].sent == w.clients[cid].sent + [LoginFail(ReasonAccountInUse), LoginFail(ReasonAccountInUse)]
              && !r.clients[cid].authenticated
              && r.clients[cid].(sent := w.clients[cid].sent, authenticated := w.clients[cid].authenticated,
                                 open := w.clients[cid].open) == w.clients[cid]
              && forall o :: o in w.clients && o != cid ==> r.clients[o] == w.clients[o]
    ensures Valid(r)
  {
    if login !in w.byAccount then CloseClient(w, cid, LoginFail(ReasonAccountInUse))
    else CloseHolderAndPlayer(w, w.byAccount[login], cid)
  }

  /** ALREADY_ON_GS: the current connection is sent ACCOUNT_IN_USE and
      closed, and the first game server holding the account, when it has
      authenticated, is told to kick the player. */
  function RejectAlreadyOnGs(w: World, cid: ClientId, account: string, env: Env): (r: World)
    requires Ready(w, cid, env)
    ensures r.clients.Keys == w.clients.Keys
    ensures !InAnyGameServer(w, account) ==> r == w
    ensures InAnyGameServer(w, account) ==>
              var id := IsAccountInAnyGameServer(w, account, env.order).value;
              var lid := w.infos[id].thread.value;
              var closed := CloseClient(w, cid, LoginFail(ReasonAccountInUse));
              && Holds(w, id, account)
              && r.clients == closed.clients && r.byAccount == closed.byAccount
              && r.clients[cid].sent == w.clients[cid].sent + [LoginFail(ReasonAccountInUse)]
              && !r.clients[cid].open
              && r.links.Keys == w.links.Keys && lid in r.links
              && r.links[lid] == (if w.infos[id].authed then KickPlayerOn(w.links[lid], account) else w.links[lid])
              && r.links[lid].sent == w.links[lid].sent +
                   (if w.infos[id].authed then [KickPlayerPacket(account)] else [])
              && (forall o :: o in w.links && o != lid ==> r.links[o] == w.links[o])
              && r.accounts == w.accounts && r.infos == w.infos
              && r.listening == w.listening && r.timers == w.timers
    ensures Valid(r)
  {
    match IsAccountInAnyGameServer(w, account, env.order)
    case None => w
    case Some(id) =>
      var w1 := CloseClient(w, cid, LoginFail(ReasonAccountInUse));
      if w1.infos[id].authed then
        var lid := w1.infos[id].thread.value;
        w1.(links := w1.links[lid := KickPlayerOn(w1.links[lid], account)])
      else w1
  }

  /** The side effects of each login result (the `switch` in
      `onReceiveAuth`). `account` is the name the player sent and `login`
      the name of the account record. */
  function ApplyAuthResult(w: World, cid: ClientId, account: string, login: string,
                           result: AuthLoginResult, env: Env): (r: World)
    requires Ready(w, cid, env)
    ensures cid in r.clients && r.clients.Keys == w.clients.Keys
    ensures result == AuthSuccess ==>
              && r.clients[cid].username == Some(login)
              && r.clients[cid].state == Some(AuthedLogin)
              && r.clients[cid].sessionKey == Some(env.newSessionKey)
              && r.clients[cid].sent == w.clients[cid].sent +
                   [if env.config.showLicense then LoginOk(Some(env.newSessionKey)) else ServerList]
              && r.clients[cid].(username := w.clients[cid].username, state := w.clients[cid].state,
                                 sessionKey := w.clients[cid].sessionKey, sent := w.clients[cid].sent)
                   == w.clients[cid]
              && OnlyClientChanged(w, r, cid)
    ensures result == InvalidPassword ==> r == CloseClient(w, cid, LoginFail(ReasonUserOrPassWrong))
    ensures result == AccountInactive ==> r == CloseClient(w, cid, LoginFail(ReasonInactive))
    ensures result == AccountBanned ==> r == CloseClient(w, cid, AccountKicked(ReasonPermanentlyBanned))
    ensures result == AlreadyOnLs ==>
              && !r.clients[cid].open && |r.clients[cid].sent| > 0
              && r.clients[cid].sent[|r.clients[cid].sent| - 1] == LoginFail(ReasonAccountInUse)
              && r.accounts == w.accounts && r.infos == w.infos && r.links == w.links
              && r.listening == w.listening && r.timers == w.timers
              && (forall a :: a in r.byAccount ==> a in w.byAccount && r.byAccount[a] == w.byAccount[a])
    ensures result == AlreadyOnLs ==> r == RejectAlreadyOnLs(w, cid, login)
    ensures result == AlreadyOnLs && login !in w.byAccount ==>
              r == CloseClient(w, cid, LoginFail(ReasonAccountInUse))
    ensures result == AlreadyOnLs && login in w.byAccount && w.byAccount[login] != cid ==>
              var prior := w.byAccount[login];
              && r.clients[prior].sent == w.clients[prior].sent + [LoginFail(ReasonAccountInUse)]
              && !r.clients[prior].open
              && r.clients[cid].sent == w.clients[cid].sent + [LoginFail(ReasonAccountInUse)]
              && forall o :: o in w.clients && o != cid && o != prior ==> r.clients[o] == w.clients[o]
    ensures result == AlreadyOnLs && login in w.byAccount && w.byAccount[login] == cid ==>
              && r.clients[cid].sent == w.clients[cid].sent + [LoginFail(ReasonAccountInUse), LoginFail(ReasonAccountInUse)]
              && forall o :: o in w.clients && o != cid ==> r.clients[o] == w.clients[o]
    ensures result == AlreadyOnGs && !InAnyGameServer(w, account) ==> r == w
    ensures result == AlreadyOnGs && InAnyGameServer(w, account) ==>
              var id := IsAccountInAnyGameServer(w, account, env.order).value;
              var lid := w.infos[id].thread.value;
              var closed := CloseClient(w, cid, LoginFail(ReasonAccountInUse));
              && Holds(w, id, account)
              && r.clients == closed.clients && r.byAccount == closed.byAccount
              && r.clients[cid].sent == w.clients[cid].sent + [LoginFail(ReasonAccountInUse)]
              && !r.clients[cid].open
              && r.links.Keys == w.links.Keys && lid in r.links
              && r.links[lid] == (if w.infos[id].authed then KickPlayerOn(w.links[lid], account) else w.links[lid])
              && r.links[lid].sent == w.links[lid].sent +
                   (if w.infos[id].authed then [KickPlayerPacket(account)] else [])
              && (forall o :: o in w.links && o != lid ==> r.links[o] == w.links[o])
              && r.accounts == w.accounts && r.infos == w.infos
              && r.listening == w.listening && r.timers == w.timers
    ensures Valid(r)
  {
    match result
    case AuthSuccess =>
      var c := w.clients[cid].(username := Some(login));
      var c1 := SetLoginClientState(c, AuthedLogin);
      var c2 := c1.(sessionKey := Some(env.newSessionKey));
      var reply := if env.config.showLicense then LoginOk(c2.sessionKey) else ServerList;
      w.(clients := w.clients[cid := ClientThread.SendPacket(c2, reply)])
    case InvalidPassword => CloseClient(w, cid, LoginFail(ReasonUserOrPassWrong))
    case AccountInactive => CloseClient(w, cid, LoginFail(ReasonInactive))
    case AccountBanned => CloseClient(w, cid, AccountKicked(ReasonPermanentlyBanned))
    case AlreadyOnLs => RejectAlreadyOnLs(w, cid, login)
    case AlreadyOnGs => RejectAlreadyOnGs(w, cid, account, env)
  }

  datatype AuthOutcome = AuthOutcome(world: World, result: Option<AuthLoginResult>)

  /** The credential check of `onReceiveAuth`: an existing account whose
      stored hash differs from the Base64 of the received hash, or an
      unknown account without auto-creation, is refused. */
  predicate CredentialsRejected(w: World, account: string, passHash: seq<Int8>, env: Env)
  {
    if account in w.accounts then w.accounts[account].passHash != env.base64(passHash)
    else !env.config.autoCreateAccount
  }

  /** The account record `onReceiveAuth` works with once the credentials are
      accepted: the stored one, or a freshly created one. */
  function AccountFor(w: World, cid: ClientId, account: string, passHash: seq<Int8>, env: Env): (info: Account)
    requires cid in w.clients && Valid(w) && !CredentialsRejected(w, account, passHash, env)
    ensures info.login == account
    ensures account in w.accounts ==> info == w.accounts[account]
    ensures account !in w.accounts ==> info.passHash == env.base64(passHash) && info.accessLevel == env.blankAccessLevel
    ensures account !in w.accounts ==>
              && info.lastServer == env.blankLastServer
              && info.lastIp == Some(w.clients[cid].connectionIp) && info.lastActive == env.now
  {
    if account in w.accounts then w.accounts[account]
    else Account(account, env.base64(passHash), env.blankAccessLevel, env.blankLastServer,
                 Some(w.clients[cid].connectionIp), env.now)
  }

  /** `onReceiveAuth`. Rejected credentials close the connection with
      USER_OR_PASS_WRONG and `tryCheckinAccount` is never reached. Otherwise
      an unknown account is created first (when auto-creation is on), the
      check-in decides the result, and its side effects follow. */
  function OnReceiveAuth(w: World, cid: ClientId, account: string, passHash: seq<Int8>, env: Env): (r: AuthOutcome)
    requires Ready(w, cid, env)
    ensures r.result.None? <==> CredentialsRejected(w, account, passHash, env)
    ensures r.result.None? ==> r.world == CloseClient(w, cid, LoginFail(ReasonUserOrPassWrong))
    ensures r.result.Some? ==>
              var info := AccountFor(w, cid, account, passHash, env);
              var w1 := w.(accounts := w.accounts[account := info]);
              && account in w1.accounts
              && r.result.value == TryCheckinAccount(w1, cid, info, env).result
              && r.world == ApplyAuthResult(TryCheckinAccount(w1, cid, info, env).world, cid, account,
                                            account, r.result.value, env)
    ensures r.world.clients.Keys == w.clients.Keys
    ensures Valid(r.world)
  {
    if CredentialsRejected(w, account, passHash, env) then
      AuthOutcome(CloseClient(w, cid, LoginFail(ReasonUserOrPassWrong)), None)
    else
      var info := AccountFor(w, cid, account, passHash, env);
      var w1 := w.(accounts := w.accounts[account := info]);
      var ck := TryCheckinAccount(w1, cid, info, env);
      AuthOutcome(ApplyAuthResult(ck.world, cid, account, info.login, ck.result, env), Some(ck.result))
  }

  /** The password is checked before the access level: an inactive account
      presented with a wrong password is refused as a wrong password, not
      as inactive, and the store is not touched. */
  lemma WrongPasswordBeatsInactive(w: World, cid: ClientId, account: string, passHash: seq<Int8>, env: Env)
    requires Ready(w, cid, env) && account in w.accounts
    requires w.accounts[account].passHash != env.base64(passHash)
    requires w.accounts[account].accessLevel == env.config.accountInactiveLevel < 0
    ensures var r := OnReceiveAuth(w, cid, account, passHash, env);
            && r.result.None?
            && r.world.clients[cid].sent == w.clients[cid].sent + [LoginFail(ReasonUserOrPassWrong)]
            && r.world.accounts == w.accounts
  {
  }

  /** A correct password on an account that a game server reports as
      playing gives ALREADY_ON_GS: the player is refused as "account in use"
      and, when the server found is authenticated, it is told to kick that
      account. */
  lemma {:induction false} AlreadyOnGsKicksHolder(w: World, cid: ClientId, account: string,
                                                  passHash: seq<Int8>, env: Env)
    requires Ready(w, cid, env) && account in w.accounts
    requires w.accounts[account].passHash == env.base64(passHash)
    requires w.accounts[account].accessLevel >= 0 && env.updateSucceeds
    requires InAnyGameServer(w, account)
    requires w.infos[IsAccountInAnyGameServer(w, account, env.order).value].authed
    ensures var r := OnReceiveAuth(w, cid, account, passHash, env);
            var id := IsAccountInAnyGameServer(w, account, env.order).value;
            var lid := w.infos[id].thread.value;
            && r.result == Some(AlreadyOnGs)
            && !r.world.clients[cid].open
            && lid in r.world.links
            && r.world.links[lid].sent == w.links[lid].sent + [KickPlayerPacket(account)]
  {
    var info := w.accounts[account];
    var w1 := w.(accounts := w.accounts[account := info]);
    assert w1 == w;
    var ck := TryCheckinAccount(w1, cid, info, env);
    assert ck.world.infos == w.infos && ck.world.links == w.links;
    FirstHolderReadsRegistry(ck.world, w, account, env.order);
    assert IsAccountInAnyGameServer(ck.world, account, env.order) == IsAccountInAnyGameServer(w, account, env.order);
  }

  /** The search reads only the registry and the connections. */
  lemma {:induction false} FirstHolderReadsRegistry(w: World, v: World, account: string, order: seq<int>)
    requires w.infos == v.infos && w.links == v.links
    ensures FirstHolder(w, account, order) == FirstHolder(v, account, order)
    decreases |order|
  {
    if |order| > 0 {
      FirstHolderReadsRegistry(w, v, account, order[1..]);
    }
  }

  // ---------------------------------------------------------------------
  // Session-key gates.
  // ---------------------------------------------------------------------

  /** `onRequestServerList`: the server list is sent exactly when the login
      pair matches the connection's key; otherwise the connection is closed
      with ACCESS_FAILED. Without a key the handler fails on the null key
      and nothing happens. */
  function OnRequestServerList(w: World, cid: ClientId, skey1: int, skey2: int): (r: World)
    requires cid in w.clients && Valid(w)
    ensures w.clients[cid].sessionKey.None? ==> r == w
    ensures w.clients[cid].sessionKey.Some? && CheckLoginPair(w.clients[cid].sessionKey.value, skey1, skey2) ==>
              && OnlyClientChanged(w, r, cid)
              && r.clients[cid].sent == w.clients[cid].sent + [ServerList]
              && r.clients[cid].(sent := w.clients[cid].sent) == w.clients[cid]
    ensures w.clients[cid].sessionKey.Some? && !CheckLoginPair(w.clients[cid].sessionKey.value, skey1, skey2) ==>
              r == CloseClient(w, cid, LoginFail(ReasonAccessFailed))
    ensures r.clients.Keys == w.clients.Keys
    ensures Valid(r)
  {
    match w.clients[cid].sessionKey
    case None => w
    case Some(k) =>
      if CheckLoginPair(k, skey1, skey2) then SendToClient(w, cid, ServerList)
      else CloseClient(w, cid, LoginFail(ReasonAccessFailed))
  }

  /** The gate of `onRequestServerLogin` as written: it passes whenever the
      license is shown, and otherwise only on a matching login pair. */
  predicate ServerLoginGate(c: Client, skey1: int, skey2: int, showLicense: bool): (pass: bool)
    ensures showLicense ==> pass
    ensures !showLicense ==> (pass <==> c.sessionKey == Some(SessionKey(skey1, skey2)))
  {
    showLicense || (c.sessionKey.Some? && CheckLoginPair(c.sessionKey.value, skey1, skey2))
  }

  /** The capacity check of `onRequestServerLogin`: a possible login marks
      the connection as joined and sends PlayOk with its key; an impossible
      one sends PlayFail(SERVER_OVERLOADED) and leaves it open. */
  function AdmitToServer(w: World, cid: ClientId, serverId: int, env: Env): (r: World)
    requires cid in w.clients && Valid(w)
    ensures var c := w.clients[cid];
            env.isLoginPossible(c, serverId) ==>
              && OnlyClientChanged(w, r, cid)
              && r.clients[cid].joinedGS
              && r.clients[cid].sent == c.sent + [PlayOk(c.sessionKey)]
              && r.clients[cid].(sent := c.sent, joinedGS := c.joinedGS) == c
    ensures var c := w.clients[cid];
            !env.isLoginPossible(c, serverId) ==>
              && OnlyClientChanged(w, r, cid)
              && r.clients[cid].sent == c.sent + [PlayFail(ReasonServerOverloaded)]
              && r.clients[cid].(sent := c.sent) == c
    ensures Valid(r)
  {
    var c := w.clients[cid];
    if env.isLoginPossible(c, serverId) then
      SendToClient(w.(clients := w.clients[cid := c.(joinedGS := true)]), cid, PlayOk(c.sessionKey))
    else SendToClient(w, cid, PlayFail(ReasonServerOverloaded))
  }

  /** `onRequestServerLogin`: once the gate passes, a possible login marks
      the connection as joined and sends PlayOk with its key, and an
      impossible one sends PlayFail(SERVER_OVERLOADED) and leaves the
      connection open. A failed gate closes with ACCESS_FAILED. With the
      license hidden and no key, the handler fails on the null key and
      nothing happens. */
  function OnRequestServerLogin(w: World, cid: ClientId, serverId: int, skey1: int, skey2: int,
                                env: Env): (r: World)
    requires cid in w.clients && Valid(w)
    ensures var c := w.clients[cid];
            !env.config.showLicense && c.sessionKey.None? ==> r == w
    ensures var c := w.clients[cid];
            ServerLoginGate(c, skey1, skey2, env.config.showLicense) && env.isLoginPossible(c, serverId) ==>
              && OnlyClientChanged(w, r, cid)
              && r.clients[cid].joinedGS
              && r.clients[cid].sent == c.sent + [PlayOk(c.sessionKey)]
              && r.clients[cid].(sent := c.sent, joinedGS := c.joinedGS) == c
    ensures var c := w.clients[cid];
            ServerLoginGate(c, skey1, skey2, env.config.showLicense) && !env.isLoginPossible(c, serverId) ==>
              && OnlyClientChanged(w, r, cid)
              && r.clients[cid].sent == c.sent + [PlayFail(ReasonServerOverloaded)]
              && r.clients[cid].(sent := c.sent) == c
    ensures var c := w.clients[cid];
            c.sessionKey.Some? && !ServerLoginGate(c, skey1, skey2, env.config.showLicense) ==>
              r == CloseClient(w, cid, LoginFail(ReasonAccessFailed))
    ensures r.clients.Keys == w.clients.Keys
    ensures Valid(r)
  {
    var c := w.clients[cid];
    if !env.config.showLicense && c.sessionKey.None? then w
    else if ServerLoginGate(c, skey1, skey2, env.config.showLicense) then AdmitToServer(w, cid, serverId, env)
    else CloseClient(w, cid, LoginFail(ReasonAccessFailed))
  }

  /** With the license shown the key check is skipped: any pair, even a
      wrong one, reaches the capacity check. */
  lemma ShowLicenseBypassesKeyCheck(c: Client, skey1: int, skey2: int)
    ensures ServerLoginGate(c, skey1, skey2, true)
    ensures c.sessionKey.Some? && !CheckLoginPair(c.sessionKey.value, skey1, skey2) ==>
              !ServerLoginGate(c, skey1, skey2, false)
  {
  }
}

=== FILE: PacketTypes.dfy ===
/** The packet types the login server sends to a game server, and their
    one-byte wire codes (`LoginServerPacketType`). */
module PacketTypes {
  import opened Common

  datatype LoginServerPacketType =
    | InitLS
    | Fail
    | AuthResponse
    | PlayerAuthResponse
    | KickPlayer
    | ReceivableList
    | RequestCharacters  // not used by the game server the gateway targets

  /** Every constant of the enum, in declaration order (`values()`). */
  const AllTypes: seq<LoginServerPacketType> :=
    [InitLS, Fail, AuthResponse, PlayerAuthResponse, KickPlayer, ReceivableList, RequestCharacters]

  /** The byte each constant carries (`getValue`). */
  function Value(t: LoginServerPacketType): (b: Int8)
    ensures 0 <= b <= 6
    ensures AllTypes[b] == t
  {
    match t
    case InitLS => 0
    case Fail => 1
    case AuthResponse => 2
    case PlayerAuthResponse => 3
    case KickPlayer => 4
    case ReceivableList => 5
    case RequestCharacters => 6
  }

  /** The `BY_VALUE` table filled by the static initialiser. Building it as a
      map keyed by `Value(t)` is well defined only because `Value` is injective,
      which Dafny checks for this comprehension. */
  function ByValue(): (m: map<Int8, LoginServerPacketType>)
    ensures forall t :: Value(t) in m && m[Value(t)] == t
  {
    map t | t in AllTypes :: Value(t) := t
  }

  /** `fromByte`: the type with the given code, or `None` where the source
      throws `IllegalArgumentException`. */
  function FromByte(b: Int8): (r: Option<LoginServerPacketType>)
  {
    var table := ByValue();
    if b in table then Some(table[b]) else None
  }

  /** The constants carry pairwise distinct codes. */
  lemma ValueInjective(s: LoginServerPacketType, t: LoginServerPacketType)
    ensures Value(s) == Value(t) ==> s == t
  {
  }

  /** Decoding the code of any type gives that type back. */
  lemma FromByteValue(t: LoginServerPacketType)
    ensures FromByte(Value(t)) == Some(t)
  {
  }

  /** `fromByte` fails exactly on the bytes outside 0..6, and otherwise
      returns the type whose code is that byte. */
  lemma FromByteFailsIff(b: Int8)
    ensures FromByte(b).None? <==> !(0 <= b <= 6)
    ensures FromByte(b).Some? ==> Value(FromByte(b).value) == b
  {
    var table := ByValue();
    if 0 <= b <= 6 {
      assert Value(AllTypes[b]) == b;
    }
  }
}

=== FILE: Registry.dfy ===
/** The shared state the connections act on: every player connection, the
    login-server controller's index of connections by account, the account
    store, the game-server registry, every game-server connection, the
    listener's list of live game-server connections, and the armed
    watchdog timers. Operations that span a connection and this shared
    state live here. */
module Registry {
  import opened Common
  import opened ClientThread
  import opened ServerThread
  import opened ServerInfo

  /** An account record (`DBAccountInfo`) as the account store keeps it. */
  datatype Account = Account(
    login: string,
    passHash: string,
    accessLevel: int,
    lastServer: int,
    lastIp: Option<string>,
    lastActive: int)

  datatype World = World(
    clients: map<ClientId, Client>,
    byAccount: map<string, ClientId>,
    accounts: map<string, Account>,
    infos: map<int, Info>,
    links: map<LinkId, Link>,
    listening: set<LinkId>,
    timers: set<Timer>)

  /** The references between objects point at objects that exist, and the
      store keys each account by its login. */
  predicate Valid(w: World)
  {
    && (forall a :: a in w.byAccount ==> w.byAccount[a] in w.clients)
    && (forall a :: a in w.accounts ==> w.accounts[a].login == a)
    && (forall id :: id in w.infos && w.infos[id].thread.Some? ==> w.infos[id].thread.value in w.links)
    && (forall l :: l in w.links && w.links[l].info.Some? ==> w.links[l].info.value in w.infos)
  }

  /** Only the one connection changed: every other connection and all other
      shared state are as before. */
  predicate OnlyClientChanged(w: World, r: World, cid: ClientId)
  {
    && r.clients.Keys == w.clients.Keys
    && (forall o :: o in w.clients && o != cid ==> r.clients[o] == w.clients[o])
    && r.byAccount == w.byAccount && r.accounts == w.accounts
    && r.infos == w.infos && r.links == w.links
    && r.listening == w.listening && r.timers == w.timers
  }

  /** Changing only one connection's fields keeps the world well formed. */
  lemma OnlyClientChangedKeepsValid(w: World, r: World, cid: ClientId)
    requires Valid(w) && OnlyClientChanged(w, r, cid)
    ensures Valid(r)
  {
  }

  /** The controller's `removeClient`: drops every index entry that points at
      the connection. `LoginServerController` is not part of this model; this
      is the behaviour its name promises. */
  function RemoveClient(byAccount: map<string, ClientId>, cid: ClientId): (m: map<string, ClientId>)
    ensures forall a :: a in m <==> a in byAccount && byAccount[a] != cid
    ensures forall a :: a in m ==> m[a] == byAccount[a]
  {
    map a | a in byAccount && byAccount[a] != cid :: byAccount[a]
  }

  /** Installs the result of a disconnect of `cid`. */
  function ApplyDisconnected(w: World, cid: ClientId, d: Disconnected): (r: World)
    requires cid in w.clients
    ensures r.clients == w.clients[cid := d.client]
    ensures d.deregistered ==> r.byAccount == RemoveClient(w.byAccount, cid)
    ensures !d.deregistered ==> r.byAccount == w.byAccount
    ensures r.(clients := w.clients, byAccount := w.byAccount) == w
  {
    w.(clients := w.clients[cid := d.client],
       byAccount := if d.deregistered then RemoveClient(w.byAccount, cid) else w.byAccount)
  }

  /** `disconnect` of a player connection: its socket is closed and, unless
      it was authenticated without being ready, no index entry points at it
      any more. Nothing else in the world changes. */
  function DisconnectClient(w: World, cid: ClientId): (r: World)
    requires cid in w.clients
    ensures r.clients.Keys == w.clients.Keys
    ensures !r.clients[cid].open && !r.clients[cid].authenticated
    ensures r.clients[cid].sent == w.clients[cid].sent
    ensures r.clients[cid].(authenticated := w.clients[cid].authenticated, open := w.clients[cid].open)
              == w.clients[cid]
    ensures forall o :: o in w.clients && o != cid ==> r.clients[o] == w.clients[o]
    ensures !w.clients[cid].authenticated || w.clients[cid].clientReady ==>
              forall a :: a in r.byAccount ==> r.byAccount[a] != cid
    ensures !w.clients[cid].authenticated || w.clients[cid].clientReady ==>
              r.byAccount == RemoveClient(w.byAccount, cid)
    ensures w.clients[cid].authenticated && !w.clients[cid].clientReady ==> r.byAccount == w.byAccount
    ensures forall a :: a in r.byAccount ==> a in w.byAccount && r.byAccount[a] == w.byAccount[a]
    ensures r.accounts == w.accounts && r.infos == w.infos && r.links == w.links
    ensures r.listening == w.listening && r.timers == w.timers
    ensures Valid(w) ==> Valid(r)
  {
    ApplyDisconnected(w, cid, ClientThread.Disconnect(w.clients[cid]))
  }

  /** A `close` overload applied to a connection of the world: the packet is
      its last one sent, and the connection is disconnected. */
  function CloseClient(w: World, cid: ClientId, p: ServerPacket): (r: World)
    requires cid in w.clients
    requires p.LoginFail? || p.AccountKicked? || p.PlayFail?
    ensures r.clients.Keys == w.clients.Keys
    ensures r.clients[cid].sent == w.clients[cid].sent + [p]
    ensures !r.clients[cid].open && !r.clients[cid].authenticated
    ensures r.clients[cid].(sent := w.clients[cid].sent, authenticated := w.clients[cid].authenticated,
                            open := w.clients[cid].open) == w.clients[cid]
    ensures forall o :: o in w.clients && o != cid ==> r.clients[o] == w.clients[o]
    ensures !w.clients[cid].authenticated || w.clients[cid].clientReady ==>
              r.byAccount == RemoveClient(w.byAccount, cid)
    ensures w.clients[cid].authenticated && !w.clients[cid].clientReady ==> r.byAccount == w.byAccount
    ensures forall a :: a in r.byAccount ==> a in w.byAccount && r.byAccount[a] == w.byAccount[a]
    ensures forall a :: a in w.byAccount && w.byAccount[a] != cid ==> a in r.byAccount && r.byAccount[a] == w.byAccount[a]
    ensures r.accounts == w.accounts && r.infos == w.infos && r.links == w.links
    ensures r.listening == w.listening && r.timers == w.timers
    ensures Valid(w) ==> Valid(r)
  {
    ApplyDisconnected(w, cid, ClientThread.Close(w.clients[cid], p))
  }

  /** Sends a packet on a player connection of the world. */
  function SendToClient(w: World, cid: ClientId, p: ServerPacket): (r: World)
    requires cid in w.clients
    ensures OnlyClientChanged(w, r, cid)
    ensures r.clients[cid].sent == w.clients[cid].sent + [p]
    ensures r.clients[cid].open == w.clients[cid].open
    ensures r.clients[cid].(sent := w.clients[cid].sent) == w.clients[cid]
    ensures Valid(w) ==> Valid(r)
  {
    w.(clients := w.clients[cid := ClientThread.SendPacket(w.clients[cid], p)])
  }

  // ---------------------------------------------------------------------
  // Game-server links and their registry entries.
  // ---------------------------------------------------------------------

  /** The entry and the connection point at each other. */
  predicate Linked(w: World, lid: LinkId, id: int)
  {
    && lid in w.links && id in w.infos
    && w.links[lid].info == Some(id) && w.infos[id].thread == Some(lid)
  }

  /** `getCurrentPlayerCount` of a registered server. */
  function RegisteredPlayerCount(w: World, id: int): nat
    requires id in w.infos
  {
    CurrentPlayerCount(w.infos[id], w.links)
  }

  /** `setGameHosts`: the entry's hostname becomes the connection's own
      address for "*" or when the name does not resolve, and the resolved
      address otherwise. `resolve` stands for the DNS lookup. */
  function SetGameHosts(w: World, lid: LinkId, hosts: string, resolve: string -> Option<string>): (r: World)
    requires lid in w.links && w.links[lid].info.Some? && w.links[lid].info.value in w.infos
    ensures var id := w.links[lid].info.value;
            && id in r.infos
            && (hosts == "*" ==> r.infos[id].hostname == Some(w.links[lid].connectionIp))
            && (hosts != "*" && resolve(hosts).None? ==> r.infos[id].hostname == Some(w.links[lid].connectionIp))
            && (hosts != "*" && resolve(hosts).Some? ==> r.infos[id].hostname == resolve(hosts))
            && r.infos[id].(hostname := w.infos[id].hostname) == w.infos[id]
            && r == w.(infos := r.infos)
            && r.infos.Keys == w.infos.Keys
            && forall o :: o in w.infos && o != id ==> r.infos[o] == w.infos[o]
    ensures Valid(w) ==> Valid(r)
  {
    var id := w.links[lid].info.value;
    var ip := w.links[lid].connectionIp;
    var host :=
      if hosts != "*" then
        match resolve(hosts)
        case Some(address) => address
        case None => ip
      else ip;
    w.(infos := w.infos[id := w.infos[id].(hostname := Some(host))])
  }

  /** `attachGameServerInfo`: links the entry and the connection both ways,
      records port, address and capacity, and marks the entry authenticated.
      The roster of the connection is untouched, so the entry now reports the
      connection's players. */
  function AttachGameServerInfo(w: World, lid: LinkId, id: int, port: int, host: string,
                                maxPlayers: int, resolve: string -> Option<string>): (r: World)
    requires lid in w.links && id in w.infos
    ensures Linked(r, lid, id)
    ensures r.infos[id].port == port && r.infos[id].maxPlayers == maxPlayers && r.infos[id].authed
    ensures r.infos[id].id == w.infos[id].id && r.infos[id].status == w.infos[id].status
    ensures host == "*" ==> r.infos[id].hostname == Some(w.links[lid].connectionIp)
    ensures host != "*" && resolve(host).None? ==> r.infos[id].hostname == Some(w.links[lid].connectionIp)
    ensures host != "*" && resolve(host).Some? ==> r.infos[id].hostname == resolve(host)
    ensures r.links[lid].accounts == w.links[lid].accounts
    ensures RegisteredPlayerCount(r, id) == PlayerCount(w.links[lid])
    ensures r.links.Keys == w.links.Keys && r.infos.Keys == w.infos.Keys
    ensures forall o :: o in w.links && o != lid ==> r.links[o] == w.links[o]
    ensures forall o :: o in w.infos && o != id ==> r.infos[o] == w.infos[o]
    ensures r.links[lid] == w.links[lid].(info := Some(id))
    ensures r.infos[id] == w.infos[id].(thread := Some(lid), port := port, hostname := r.infos[id].hostname,
                                       maxPlayers := maxPlayers, authed := true)
    ensures r.clients == w.clients && r.byAccount == w.byAccount && r.accounts == w.accounts
    ensures r.listening == w.listening && r.timers == w.timers
    ensures Valid(w) ==> Valid(r)
  {
    var w1 := w.(links := w.links[lid := w.links[lid].(info := Some(id))]);
    var w2 := w1.(infos := w1.infos[id := w1.infos[id].(thread := Some(lid))]);
    var w3 := w2.(infos := w2.infos[id := w2.infos[id].(port := port)]);
    var w4 := SetGameHosts(w3, lid, host, resolve);
    var w5 := w4.(infos := w4.infos[id := w4.infos[id].(maxPlayers := maxPlayers)]);
    w5.(infos := w5.infos[id := w5.infos[id].(authed := true)])
  }

  /** Result of a game-server `disconnect`: the new world, or the
      `NullPointerException` raised when no entry was ever attached, with
      the world as it stood when the exception ended the call. */
  datatype ServerDisconnect = ServerDown(world: World) | NullInfoFault(world: World)

  /** What a disconnect of `lid` does to the world once it gets past the
      entry: an authenticated entry is set down (`down`), the connection is
      removed from the listener and closed, and nothing else changes. */
  predicate DisconnectedLink(w: World, r: World, lid: LinkId, down: Option<int>)
    requires lid in w.links
  {
    && r.links == w.links[lid := w.links[lid].(open := false)]
    && r.listening == w.listening - {lid}
    && (match down
        case Some(id) => id in w.infos && r.infos == w.infos[id := SetDown(w.infos[id])]
        case None => r.infos == w.infos)
    && r.clients == w.clients && r.byAccount == w.byAccount
    && r.accounts == w.accounts && r.timers == w.timers
  }

  /** The entry a disconnect of `lid` sets down: the attached one, when it is
      authenticated. */
  function DownedEntry(w: World, lid: LinkId): Option<int>
    requires lid in w.links && Valid(w)
  {
    match w.links[lid].info
    case Some(id) => if w.infos[id].authed then Some(id) else None
    case None => None
  }

  /** `disconnect` of a game-server connection as written. It reads the
      entry without a null check, so a connection that never registered
      fails before anything is done. Otherwise an authenticated entry is set
      down, the connection is removed from the listener and its socket is
      closed. The connection's roster is not cleared. */
  function DisconnectServer(w: World, lid: LinkId): (r: ServerDisconnect)
    requires lid in w.links && Valid(w)
    ensures r.NullInfoFault? <==> w.links[lid].info.None?
    ensures r.NullInfoFault? ==> r.world == w
    ensures r.ServerDown? ==> DisconnectedLink(w, r.world, lid, DownedEntry(w, lid))
    ensures r.ServerDown? ==>
              var id := w.links[lid].info.value;
              && lid !in r.world.listening && lid in r.world.links && !r.world.links[lid].open
              && r.world.links[lid].accounts == w.links[lid].accounts
              && id in r.world.infos
              && (w.infos[id].authed ==> r.world.infos[id] == SetDown(w.infos[id]))
              && (!w.infos[id].authed ==> r.world.infos == w.infos)
    ensures Valid(r.world)
  {
    match w.links[lid].info
    case None => NullInfoFault(w)
    case Some(id) =>
      var w1 := if w.infos[id].authed then w.(infos := w.infos[id := SetDown(w.infos[id])]) else w;
      var w2 := w1.(listening := w1.listening - {lid});
      ServerDown(w2.(links := w2.links[lid := w2.links[lid].(open := false)]))
  }

  /** `disconnect` as evidently intended: a connection that never registered
      is still removed from the listener and closed. */
  function DisconnectServerIntended(w: World, lid: LinkId): (r: World)
    requires lid in w.links && Valid(w)
    ensures DisconnectedLink(w, r, lid, DownedEntry(w, lid))
    ensures lid !in r.listening && lid in r.links && !r.links[lid].open
    ensures r.links[lid].accounts == w.links[lid].accounts
    ensures r.infos.Keys == w.infos.Keys
    ensures w.links[lid].info.Some? && w.infos[w.links[lid].info.value].authed ==>
              r.infos[w.links[lid].info.value] == SetDown(w.infos[w.links[lid].info.value])
    ensures w.links[lid].info.None? ==> r.infos == w.infos
    ensures Valid(r)
  {
    var w1 :=
      match w.links[lid].info
      case Some(id) => if w.infos[id].authed then w.(infos := w.infos[id := SetDown(w.infos[id])]) else w
      case None => w;
    var w2 := w1.(listening := w1.listening - {lid});
    w2.(links := w2.links[lid := w2.links[lid].(open := false)])
  }

  /** The intended version agrees with the one as written wherever the
      latter does not fail, and the latter fails on every connection that
      was accepted but never registered, leaving it listed and open. */
  lemma {:induction false} DisconnectServerFailsUnregistered(w: World, lid: LinkId)
    requires lid in w.links && Valid(w)
    ensures DisconnectServer(w, lid).ServerDown? ==> DisconnectServer(w, lid).world == DisconnectServerIntended(w, lid)
    ensures w.links[lid].info.None? ==>
              DisconnectServer(w, lid).NullInfoFault? && lid !in DisconnectServerIntended(w, lid).listening
  {
  }

  /** A concrete instance: a game server that connects and drops before
      registering is never removed from the listener by `disconnect`. */
  lemma UnregisteredLinkStaysListed()
    ensures var w := World(map[], map[], map[], map[], map[7 := NewLink("10.0.0.1")], {7}, {});
            && DisconnectServer(w, 7).NullInfoFault?
            && 7 in DisconnectServer(w, 7).world.listening && DisconnectServer(w, 7).world.links[7].open
            && 7 !in DisconnectServerIntended(w, 7).listening
  {
  }

  /** After the connection of an authenticated entry drops, the entry is down
      and reports no players, although the dropped connection still holds
      its roster. */
  lemma {:induction false} DisconnectReportsNoPlayers(w: World, lid: LinkId)
    requires lid in w.links && Valid(w)
    requires w.links[lid].info.Some? && w.infos[w.links[lid].info.value].authed
    ensures var r := DisconnectServer(w, lid);
            && r.ServerDown?
            && RegisteredPlayerCount(r.world, w.links[lid].info.value) == 0
            && r.world.links[lid].accounts == w.links[lid].accounts
  {
    var id := w.links[lid].info.value;
    SetDownReportsNoPlayers(w.infos[id], DisconnectServer(w, lid).world.links);
  }

  /** `forceClose`: sends the failure notice, then disconnects as written.
      The notice is sent even when the disconnect then fails on a
      connection that never registered. */
  function ForceClose(w: World, lid: LinkId, reason: int): (r: ServerDisconnect)
    requires lid in w.links && Valid(w)
    ensures var sent := w.links[lid].(sent := w.links[lid].sent + [LoginServerFailPacket(reason)]);
            var w1 := w.(links := w.links[lid := sent]);
            && (r.NullInfoFault? <==> w.links[lid].info.None?)
            && (r.NullInfoFault? ==> r.world == w1)
            && (r.ServerDown? ==> DisconnectedLink(w1, r.world, lid, DownedEntry(w, lid)))
    ensures lid in r.world.links
    ensures r.world.links[lid].sent == w.links[lid].sent + [LoginServerFailPacket(reason)]
    ensures r.ServerDown? ==> !r.world.links[lid].open && lid !in r.world.listening
    ensures Valid(r.world)
  {
    var w1 := w.(links := w.links[lid := ServerThread.SendPacket(w.links[lid], LoginServerFailPacket(reason))]);
    DisconnectServer(w1, lid)
  }

}

=== FILE: ServerInfo.dfy ===
/** A registry entry for one game server (`GameServerInfo`): its identity,
    whether it is authenticated, its status code, its network address and
    capacity, and the connection currently serving it. */
module ServerInfo {
  import opened Common
  import opened ServerThread
  import StatusPacket

  /** `thread` names the connection by identity (`null` when none);
      `hostname` is `null` until the server registers. The constant
      `isPvp = true` field carries no behaviour and is omitted. */
  datatype Info = Info(
    id: int,
    hexId: seq<Int8>,
    authed: bool,
    thread: Option<LinkId>,
    status: int,
    hostname: Option<string>,
    port: int,
    maxPlayers: int)

  /** The `STATUS_DOWN` code of the `ServerStatus` enum. */
  const STATUS_DOWN: int := 4

  /** The three-argument constructor: a new entry is down and not yet
      authenticated, with no address. */
  function NewInfoWithThread(id: int, hexId: seq<Int8>, thread: Option<LinkId>): (gsi: Info)
    ensures gsi.status == STATUS_DOWN && StatusName(gsi.status) == "Down"
    ensures !gsi.authed && gsi.port == 0 && gsi.hostname.None?
    ensures gsi.id == id && gsi.hexId == hexId && gsi.thread == thread
    ensures gsi.maxPlayers == 0
  {
    Info(id, hexId, false, thread, STATUS_DOWN, None, 0, 0)
  }

  /** The two-argument constructor: as above, with no connection. */
  function NewInfo(id: int, hexId: seq<Int8>): (gsi: Info)
    ensures gsi.thread.None? && gsi.status == STATUS_DOWN
    ensures gsi == NewInfoWithThread(id, hexId, None)
    ensures forall links: map<LinkId, Link> :: CurrentPlayerCount(gsi, links) == 0
  {
    NewInfoWithThread(id, hexId, None)
  }

  /** `getStatusName`. */
  function StatusName(status: int): (name: string)
    ensures name == "Unknown" <==> !(0 <= status <= 5)
    ensures status == STATUS_DOWN ==> name == "Down"
    ensures status == 5 ==> name == "GM Only"
  {
    match status
    case 0 => "Light"
    case 1 => "Normal"
    case 2 => "Heavy"
    case 3 => "Full"
    case 4 => "Down"
    case 5 => "GM Only"
    case _ => "Unknown"
  }

  /** Distinct known codes have distinct names, so the name identifies the code. */
  lemma StatusNameInjective(a: int, b: int)
    requires 0 <= a <= 5 && 0 <= b <= 5
    ensures StatusName(a) == StatusName(b) ==> a == b
  {
  }

  /** The packet's display table agrees with `getStatusName` on codes 0..4
      but spells code 5 differently ("Gm Only" against "GM Only"). */
  lemma {:induction false} StatusNamesAgreeExceptGmOnly(code: int)
    requires 0 <= code <= 5
    ensures code < 5 ==> StatusPacket.STATUS_STRING[code] == StatusName(code)
    ensures code == 5 ==> StatusPacket.STATUS_STRING[code] != StatusName(code)
  {
    if code == 5 {
      assert StatusPacket.STATUS_STRING[5][1] == 'm' && StatusName(5)[1] == 'M';
    }
  }

  /** `setStatus` stores any integer without validation; an out-of-range
      value is displayed as "Unknown". Nothing else changes. */
  function SetStatus(gsi: Info, value: int): (r: Info)
    ensures r.status == value
    ensures !(0 <= value <= 5) ==> StatusName(r.status) == "Unknown"
    ensures r.(status := gsi.status) == gsi
  {
    gsi.(status := value)
  }

  /** `getCurrentPlayerCount`: the size of the connection's roster, or 0
      when there is no connection. */
  function CurrentPlayerCount(gsi: Info, links: map<LinkId, Link>): (n: nat)
    ensures gsi.thread.None? ==> n == 0
    ensures gsi.thread.Some? && gsi.thread.value in links ==> n == |links[gsi.thread.value].accounts|
  {
    match gsi.thread
    case None => 0
    case Some(t) => if t in links then PlayerCount(links[t]) else 0
  }

  /** `setDown`: the entry is marked down, unauthenticated, without port or
      connection; identity, address and capacity are kept. */
  function SetDown(gsi: Info): (r: Info)
    ensures !r.authed && r.port == 0 && r.thread.None? && r.status == STATUS_DOWN
    ensures r.id == gsi.id && r.hexId == gsi.hexId
    ensures r.hostname == gsi.hostname && r.maxPlayers == gsi.maxPlayers
  {
    SetStatus(gsi.(authed := false, port := 0, thread := None), STATUS_DOWN)
  }

  /** A downed entry reports no players whatever the connections hold, and
      downing it again changes nothing. */
  lemma SetDownReportsNoPlayers(gsi: Info, links: map<LinkId, Link>)
    ensures CurrentPlayerCount(SetDown(gsi), links) == 0
    ensures StatusName(SetDown(gsi).status) == "Down"
    ensures SetDown(SetDown(gsi)) == SetDown(gsi)
  {
  }
}

=== FILE: ServerThread.dfy ===
/** One game-server connection (`GameServerThread`): its server-side length
    framing, the send pipeline, the roster of accounts playing on that
    server, and its connection state. Operations that also touch the
    registry entry (attach, host update, disconnect) are in `Registry`. */
module ServerThread {
  import opened Common
  import opened PacketTypes

  /** State of the link as seen by the login server (`GameServerState`).
      Only the initial constant is used by this class; the other constants
      of that enum are not part of this model and are carried by name. */
  datatype GameServerState = Connected | OtherState(name: string)

  /** Packets the login server sends to a game server. */
  datatype LsPacket =
    | InitLSPacket(modulus: seq<Int8>)
    | LoginServerFailPacket(reason: int)
    | KickPlayerPacket(account: string)
    | RequestCharactersPacket(account: string)

  /** A game-server connection. `info` names the attached registry entry by
      server id (`null` until `attachGameServerInfo`); `accounts` is the set
      of accounts the server reports as playing on it; `sent` lists the
      packets handed to `sendPacket`, oldest first; `open` is false once the
      socket is closed. */
  datatype Link = Link(
    connectionIp: string,
    state: GameServerState,
    info: Option<int>,
    accounts: set<string>,
    sent: seq<LsPacket>,
    open: bool)

  /** The packet type tag of each packet. */
  function TypeOf(p: LsPacket): LoginServerPacketType
  {
    match p
    case InitLSPacket(_) => InitLS
    case LoginServerFailPacket(_) => Fail
    case KickPlayerPacket(_) => KickPlayer
    case RequestCharactersPacket(_) => RequestCharacters
  }

  /** A freshly accepted game-server connection. */
  function NewLink(connectionIp: string): (l: Link)
    ensures l.state == Connected
    ensures l.info.None? && l.open
    ensures PlayerCount(l) == 0 && l.sent == []
    ensures l.connectionIp == connectionIp
  {
    Link(connectionIp, Connected, None, {}, [], true)
  }

  // ---------------------------------------------------------------------
  // Framing: on this connection kind the length counts its own two bytes.
  // ---------------------------------------------------------------------

  /** The header written before a body of `bodyLen` bytes. */
  function WriteHeader(bodyLen: nat): seq<UInt8>
  {
    LengthBytes(bodyLen + 2)
  }

  /** The read loop's interpretation of the two header bytes `lo`, `hi`
      (each as returned by `read()`), with `closed` the socket state. */
  function ReadHeader(lo: ReadResult, hi: ReadResult, closed: bool): (h: HeaderRead)
    ensures hi < 0 || closed ==> h == EndOfStream
    ensures h.Body? ==> h.length == hi * 256 + lo - 2
  {
    if hi < 0 || closed then EndOfStream
    else
      var length := hi * 256 + lo - 2;
      if length < 0 then NegativeLength(length) else Body(length)
  }

  /** A body of up to 65533 bytes is read back with its exact length; the
      two longer lengths a 16-bit header cannot carry once 2 is added wrap
      to a negative body length. */
  lemma {:induction false} FrameRoundTrip(n: nat)
    ensures n <= 65533 ==> ReadHeader(WriteHeader(n)[0], WriteHeader(n)[1], false) == Body(n)
    ensures n == 65534 || n == 65535 ==>
              ReadHeader(WriteHeader(n)[0], WriteHeader(n)[1], false) == NegativeLength(n - 65536)
  {
    LengthBytesValue(n + 2);
  }

  /** The bytes `sendPacket` puts on the wire for packet data `data`: the
      checksum is written into the data first, the result is encrypted, and
      the encrypted bytes are framed. The two transformations are the
      checksum and cipher of the link, which are not part of this model. */
  function FrameForGameServer(data: seq<Int8>, appendChecksum: seq<Int8> -> seq<Int8>,
                              crypt: seq<Int8> -> seq<Int8>): (wire: seq<UInt8>)
    ensures |wire| == |crypt(appendChecksum(data))| + 2
    ensures wire[2..] == WireBytes(crypt(appendChecksum(data)))
    ensures |wire| <= 65535 ==> ReadHeader(wire[0], wire[1], false) == Body(|wire| - 2)
  {
    var body := crypt(appendChecksum(data));
    FrameRoundTrip(|body|);
    WriteHeader(|body|) + WireBytes(body)
  }

  /** A peer that reads the frame, decrypts the body with the inverse cipher
      and checks the checksum accepts every packet sent: the checksum is
      appended before encryption, so it is verified after decryption. */
  lemma {:induction false} SendThenReceive(data: seq<Int8>, appendChecksum: seq<Int8> -> seq<Int8>,
                                           crypt: seq<Int8> -> seq<Int8>, decrypt: seq<Int8> -> seq<Int8>,
                                           verifyChecksum: seq<Int8> -> bool)
    requires forall x :: decrypt(crypt(x)) == x
    requires forall x :: verifyChecksum(appendChecksum(x))
    requires |crypt(appendChecksum(data))| <= 65533
    ensures var wire := FrameForGameServer(data, appendChecksum, crypt);
            && ReadHeader(wire[0], wire[1], false) == Body(|wire| - 2)
            && decrypt(JavaBytes(wire[2..])) == appendChecksum(data)
            && verifyChecksum(decrypt(JavaBytes(wire[2..])))
  {
    var body := crypt(appendChecksum(data));
    JavaBytesOfWireBytes(body);
  }

  /** `sendPacket`: the packet is recorded as sent. Its type always has a
      code that `fromByte` maps back, so the lookup at the start of
      `sendPacket` never throws. */
  function SendPacket(l: Link, p: LsPacket): (r: Link)
    ensures r.sent == l.sent + [p]
    ensures r.(sent := l.sent) == l
    ensures FromByte(Value(TypeOf(p))) == Some(TypeOf(p))
  {
    FromByteValue(TypeOf(p));
    l.(sent := l.sent + [p])
  }

  /** `kickPlayer`: tells the game server to drop the account. */
  function KickPlayerOn(l: Link, account: string): (r: Link)
    ensures r.sent == l.sent + [KickPlayerPacket(account)]
    ensures r.accounts == l.accounts
    ensures r.(sent := l.sent) == l
  {
    SendPacket(l, KickPlayerPacket(account))
  }

  /** The first thing the read loop does: send the public key's modulus. */
  function GreetLink(l: Link, modulus: seq<Int8>): (r: Link)
    ensures r.sent == l.sent + [InitLSPacket(modulus)]
    ensures TypeOf(r.sent[|l.sent|]) == InitLS && Value(InitLS) == 0
    ensures r.(sent := l.sent) == l
  {
    SendPacket(l, InitLSPacket(modulus))
  }

  /** `requestCharacters`: asks the game server for the account's characters. */
  function RequestCharactersOn(l: Link, account: string): (r: Link)
    ensures r.sent == l.sent + [RequestCharactersPacket(account)]
    ensures TypeOf(r.sent[|l.sent|]) == RequestCharacters && Value(RequestCharacters) == 6
    ensures r.(sent := l.sent) == l
  {
    SendPacket(l, RequestCharactersPacket(account))
  }

  // ---------------------------------------------------------------------
  // The roster of accounts on the game server.
  // ---------------------------------------------------------------------

  predicate HasAccount(l: Link, account: string)
  {
    account in l.accounts
  }

  function PlayerCount(l: Link): nat
  {
    |l.accounts|
  }

  /** The count is zero exactly when no account is on the server. */
  lemma {:induction false} PlayerCountZeroIff(l: Link)
    ensures PlayerCount(l) == 0 <==> forall a :: !HasAccount(l, a)
  {
    if PlayerCount(l) != 0 {
      var a :| a in l.accounts;
      assert HasAccount(l, a);
    }
  }

  /** `addAccountOnGameServer`: the account is on the server afterwards,
      every other account is as before, and the count grows by one exactly
      when the account was not there yet. */
  function AddAccount(l: Link, account: string): (r: Link)
    ensures HasAccount(r, account)
    ensures forall b :: b != account ==> (HasAccount(r, b) <==> HasAccount(l, b))
    ensures PlayerCount(r) == PlayerCount(l) + (if HasAccount(l, account) then 0 else 1)
    ensures r.(accounts := l.accounts) == l
  {
    if account in l.accounts then
      assert l.accounts + {account} == l.accounts;
      l.(accounts := l.accounts + {account})
    else
      assert |l.accounts + {account}| == |l.accounts| + 1;
      l.(accounts := l.accounts + {account})
  }

  /** `removeAccountOnGameServer`: the account is gone afterwards, every
      other account is as before, and the count drops by one exactly when
      the account was there. */
  function RemoveAccount(l: Link, account: string): (r: Link)
    ensures !HasAccount(r, account)
    ensures forall b :: b != account ==> (HasAccount(r, b) <==> HasAccount(l, b))
    ensures PlayerCount(r) == PlayerCount(l) - (if HasAccount(l, account) then 1 else 0)
    ensures r.(accounts := l.accounts) == l
  {
    if account in l.accounts then
      assert |l.accounts - {account}| == |l.accounts| - 1;
      l.(accounts := l.accounts - {account})
    else
      assert l.accounts - {account} == l.accounts;
      l.(accounts := l.accounts - {account})
  }

  /** Adding an account twice counts it once; removing it afterwards
      restores the original roster when it was not there before. */
  lemma {:induction false} AddTwiceCountsOnce(l: Link, account: string)
    ensures PlayerCount(AddAccount(AddAccount(l, account), account)) == PlayerCount(AddAccount(l, account))
    ensures !HasAccount(l, account) ==> RemoveAccount(AddAccount(l, account), account) == l
  {
    if !HasAccount(l, account) {
      assert RemoveAccount(AddAccount(l, account), account).accounts == l.accounts;
    }
  }

  /** `setLoginConnectionState`: stores the new state and nothing else. */
  function SetLoginConnectionState(l: Link, s: GameServerState): (r: Link)
    ensures r.state == s
    ensures r.(state := l.state) == l
  {
    l.(state := s)
  }
}

=== FILE: StatusPacket.dfy ===
/** The status update a game server sends (`ServerStatusPacket`): a count
    followed by that many (attribute, value) pairs, and the status codes. */
module StatusPacket {
  import opened Common

  /** Attribute identifiers a game server may report. */
  const SERVER_LIST_STATUS: int := 0x01
  const MAX_PLAYERS: int := 0x07

  /** Server status codes. */
  const STATUS_LIGHT: int := 0x00
  const STATUS_NORMAL: int := 0x01
  const STATUS_HEAVY: int := 0x02
  const STATUS_FULL: int := 0x03
  const STATUS_DOWN: int := 0x04
  const STATUS_GM_ONLY: int := 0x05

  /** Display names indexed by status code. */
  const STATUS_STRING: seq<string> := ["Light", "Normal", "Heavy", "Full", "Down", "Gm Only"]

  datatype Attribute = Attribute(id: int, value: int)

  /** The number of loop rounds `for (i = 0; i < total; i++)` performs. */
  function Rounds(total: int): nat
  {
    if total < 0 then 0 else total
  }

  /** The status codes are the contiguous values 0..5, and the display table
      has exactly one name per code. */
  lemma StatusCodesContiguous()
    ensures [STATUS_LIGHT, STATUS_NORMAL, STATUS_HEAVY, STATUS_FULL, STATUS_DOWN, STATUS_GM_ONLY]
            == [0, 1, 2, 3, 4, 5]
    ensures |STATUS_STRING| == STATUS_GM_ONLY + 1
    ensures STATUS_STRING[STATUS_DOWN] == "Down" && STATUS_STRING[STATUS_LIGHT] == "Light"
  {
  }

  /** Parses the body of a status packet, given as the stream of 32-bit
      integers `readI` would return in turn. The first integer is the
      attribute count; each attribute is a pair of integers. Reading past the
      end of the stream is a failed parse (`None`). */
  method ParseServerStatus(ints: seq<int>) returns (r: Option<seq<Attribute>>)
    ensures r.Some? <==> 1 <= |ints| && 1 + 2 * Rounds(ints[0]) <= |ints|
    ensures r.Some? ==> |r.value| == Rounds(ints[0])
    ensures r.Some? ==> forall i :: 0 <= i < |r.value| ==>
              r.value[i] == Attribute(ints[1 + 2 * i], ints[2 + 2 * i])
  {
    if |ints| == 0 {
      return None;
    }
    var total := ints[0];
    var attributes: seq<Attribute> := [];
    var pos := 1;
    var i := 0;
    while i < total
      invariant 0 <= i <= Rounds(total)
      invariant pos == 1 + 2 * i <= |ints|
      invariant |attributes| == i
      invariant forall j :: 0 <= j < i ==> attributes[j] == Attribute(ints[1 + 2 * j], ints[2 + 2 * j])
    {
      if |ints| < pos + 2 {
        return None;
      }
      attributes := attributes + [Attribute(ints[pos], ints[pos + 1])];
      pos := pos + 2;
      i := i + 1;
    }
    return Some(attributes);
  }
}
